=== FILE: README.md ===
# Sorting visualizer: a verified model of its ten sorts

The program draws ten panels in a grid of five columns and two rows. Each panel runs one in-place sort
over its own copy of a shared random list. Nine of the sorts call
`update(i, j)` after every write, which redraws that panel. `tim_sort` calls
it only after `arr.sort()` returns, once for each index.

This project models:

- each of the ten sorts as a Dafny method over `seq<int>`;
- the sequence of `update` calls, as an ordinary output `updates: seq<Update>`;
- the downsampling that chooses which cells a panel draws.

All code cited is in `test.py`.

Module layout:

- `Common` holds the shared vocabulary: `Sorted`, `Update`, `Sweep`, `Swap`,
  and the permutation and uniqueness facts.
- `Inversion` counts inversions, which fixes the exact number of notifications
  bubble and insertion sort make.
- There is one module per sort: `BubbleSort`, `SelectionSort`,
  `InsertionSort`, `MergeSort`, `QuickSort`, `HeapSort`, `RadixSort`,
  `ShellSort`, `TimSort` and `CountingSort`.
- `Builtin.ListSort` is an independent reference sort. It stands in for
  Python's `list.sort`. Because `Common.SortedPermutationUnique` holds, every
  correct sort must return exactly its result.
- `Panel` models the bar downsampling.
- `Agree.RunAll` runs all ten sorts on one input, as `main` does. It states
  that all ten panels end with the same list.

Every sort is proved to return a permutation of its input. Eight of them are
proved to return it sorted for any list of integers. Radix sort is proved
sorted only when no value is negative. Counting sort is modelled only on
non-negative values, which it requires. Most sorts are also proved to make a
specific pattern of notifications:

- how many there are;
- which indices they name;
- what happens on input that is already sorted.

Two facts about `test.py` shape the contracts:

- `radix_sort` calls `max(arr)` (test.py:170), which raises an error on an
  empty list. `RadixSort.Sort` therefore requires a non-empty input.
- Bubble sort is the only sort that makes no call to `update` on every
  sorted input. The others call `update` on any sorted list of two or more
  values, except that radix sort makes no call when its largest value is 0
  or less. On a one-cell list, selection, tim and counting sort still call
  it, and so does radix sort when the value is positive.

## Model

| member | source | states |
|---|---|---|
| Common.SortedPermutationUnique | test.py:214-218 | two sorted lists with the same values are equal, so every panel that sorts correctly ends with the same list |
| Builtin.ListSort | test.py:192 | `arr.sort()` yields a non-decreasing arrangement of exactly the input's values |
| Builtin.SortedPermutationIsListSort | test.py:192 | any sorted permutation of the input is the list `arr.sort()` produces |
| Inversion.SwapAdjacentInversion | test.py:62-64 | exchanging an out-of-order adjacent pair removes exactly one inversion |
| Inversion.NoInversionsIffSorted | test.py:58-64 | a list has no inversions exactly when it is sorted, in both directions |
| Inversion.InversionsBound | test.py:58-64 | a list of n values has at most n(n-1)/2 inversions, which bounds the notifications of bubble and insertion sort |
| BubbleSort.CompareSwap | test.py:62-64 | the cells are swapped exactly when `arr[j] > arr[j+1]`; a swap removes one inversion and carries the pass maximum forward |
| BubbleSort.Pass | test.py:61-64 | after the pass for `i`, the largest value of the unsorted prefix has moved to its end; the suffix and the values are kept; one adjacent-pair notification per inversion removed |
| BubbleSort.Sort | test.py:58-64 | sorted permutation; the number of notifications equals the input's inversions; there are none exactly when the input is already sorted; each names an adjacent pair |
| SelectionSort.MinIndex | test.py:68-71 | the scan finds the first position holding the minimum of `arr[i..]` |
| SelectionSort.Select | test.py:68-74 | one outer step finds the first minimum of `arr[i..]`, swaps it into cell `i` and notifies `update(i, min_idx)`, extending the sorted, no-larger prefix by one cell |
| SelectionSort.Sort | test.py:66-74 | sorted permutation; exactly one notification per index; the `k`-th is `update(k, m)` where `m` is the first minimum of `arr[k..]` in the array as step `k` finds it, and step `k` swaps cells `k` and `m`; on sorted input nothing moves and every notification is `update(k, k)` |
| InsertionSort.RotatedInversions | test.py:79-84 | rotating `key` down past the larger cells before it keeps the values and removes one inversion per cell passed |
| InsertionSort.ShiftRight | test.py:80-83 | the `while` loop stops at the first hole whose left neighbour is at most `key`, after shifting exactly the larger cells; the `t`-th notification is `update(i - t, i - 1 - t)` |
| InsertionSort.PlaceKey | test.py:84-85 | writing `key` into the hole left by the shifts keeps `arr[..i+1]` sorted and touches no cell after `i` |
| InsertionSort.Insert | test.py:77-85 | one `for` step leaves `arr[..i+1]` sorted and permuted and every cell after `i` untouched; notifications are 1 plus the inversions removed, the last naming `i` as its second index; sorted input gives only `update(i, i)` |
| InsertionSort.Sort | test.py:76-85 | sorted permutation; exactly `n - 1` plus the input's inversion count notifications, all naming valid indices |
| MergeSort.MergedSortedPermutation | test.py:88-98 | merging two sorted runs gives a sorted run holding the values of both |
| MergeSort.Step | test.py:91-98 | one iteration of the merge loop extends by one cell the prefix of `arr[left..]` that agrees with the merged runs; what is still to come is the merge of the unread parts of the runs, and cells outside the range are untouched |
| MergeSort.Merge | test.py:88-98 | `merge` writes the merged runs into `arr[left..right]`, leaves everything else alone and notifies `update(k, k)` for each written `k` in order |
| MergeSort.MergeRec | test.py:100-105 | `merge_rec` sorts `arr[left..right]` in place, a permutation of that segment, with as many notifications as the recursive write count, each on the diagonal of the segment |
| MergeSort.MergeWritesPowerOfTwo | test.py:100-105 | on 2^k cells the recursion writes exactly k * 2^k cells |
| MergeSort.Sort | test.py:87-107 | sorted permutation; the write count of `merge_rec(0, n - 1)` is the number of notifications |
| QuickSort.Scan | test.py:119-123 | one comparison with the pivot: smaller values are swapped into the low side and notified as `update(i, j)`; otherwise nothing changes |
| QuickSort.Partition | test.py:116-126 | the Lomuto partition places the pivot `arr[high]` at `pi` with smaller values left of it and no smaller values right of it, permuting only `[low, high]`; the last notification is `update(pi, high)` |
| QuickSort.Quick | test.py:110-114 | `quick(low, high)` sorts that segment in place as a permutation and every notification stays inside it |
| QuickSort.Sort | test.py:109-128 | sorted permutation, every notification in range |
| HeapSort.Largest | test.py:132-138 | the chosen node is `i` or one of its children below `n`, and holds a value no smaller than `arr[i]` and than either child |
| HeapSort.Heapify | test.py:131-142 | sifting node `i` down restores the max-heap below it, permuting only nodes `i..n-1`; the first notification is `update(i, largest)` and each one names a node and one of its children, each starting where the previous one ended; a node already in place causes no change and no notification |
| HeapSort.HeapRootMax | test.py:147-149 | in a max-heap the root is the largest value |
| HeapSort.BuildHeap | test.py:144-146 | after the build loop the array is a max-heap whose root is the maximum, with the same values |
| HeapSort.Extract | test.py:147-150 | each extraction swaps the root to position `i` (notified as `update(0, i)`), and it is no smaller than anything left in the heap |
| HeapSort.Sort | test.py:130-150 | sorted permutation; at least `n - 1` notifications, each naming an index and a later index of the array |
| RadixSort.Digit | test.py:158 | `(x // exp) % 10` is a digit 0..9, with floor division as in the source for negative values too |
| RadixSort.CountDigits | test.py:156-159 | `count[d]` is the number of values whose digit at `exp` is `d` |
| RadixSort.Accumulate | test.py:160-161 | after the prefix sums, `count[d]` is the end of bucket `d` in the output |
| RadixSort.PlaceOne | test.py:163-165 | placing `arr[i]` at `count[idx] - 1` puts it at the last free slot of its bucket, leaving the cursors consistent |
| RadixSort.Place | test.py:162-165 | the backward placement loop produces the stable bucket order: digit 0 first, the input order kept within each digit |
| RadixSort.BucketsValues | test.py:153-168 | the stable bucket order is a permutation of the input |
| RadixSort.ByDigitOrdered | test.py:153-168 | stability: if the input was ordered by its last k digits, the pass output is ordered by its last k + 1 digits |
| RadixSort.Pass | test.py:153-168 | one `counting_sort(exp)` returns the stable digit order, a permutation, with `update(i, i)` for every `i` in order |
| RadixSort.DigitsBounds | test.py:170-174 | a positive `max_val` has `Digits(max_val)` decimal digits, so the `while` loop makes that many passes |
| RadixSort.Round | test.py:172-174 | each loop iteration applies the digit pass for the current `exp`, appends one full sweep of notifications, multiplies `exp` by 10 and strictly decreases `max_val // exp` |
| RadixSort.Finished | test.py:172 | once `max_val // exp` is 0, one full sweep of notifications per digit of `max_val` has been made and non-negative input is sorted |
| RadixSort.Sort | test.py:152-174 | permutation; exactly one `update(i, i)` sweep per decimal digit of `max(arr)`; sorted whenever no value is negative |
| ShellSort.OneSortedIsSorted | test.py:178-189 | the last pass has gap 1, and a list ordered in steps of one is sorted |
| ShellSort.ChainAt | test.py:183-186 | after `n` shifts the hole is at `i - n * gap` and the `t`-th notification is `update(i - t * gap, i - (t + 1) * gap)` |
| ShellSort.Shift | test.py:184-186 | one iteration copies `arr[j - gap]` into `arr[j]`, notifies `update(j, j - gap)` and moves the hole down by `gap`, keeping the values apart from the held `temp` |
| ShellSort.ShiftDown | test.py:183-186 | the `while` loop stops where `temp` belongs; its notifications are the chain `update(i - t * gap, i - (t + 1) * gap)`; each notified cell holds the value of its partner `gap` below, every other cell is unchanged, and nothing after `i` is touched |
| ShellSort.GapInsert | test.py:180-188 | one `for` step leaves `arr[..i+1]` gap-ordered and permuted and every cell after `i` untouched; the last notification is `update(h, i)`, where `h` is the hole `i - t * gap` after the `t` shifts and now holds `temp`; on ordered input it is the only one and nothing moves |
| ShellSort.GapPass | test.py:180-188 | a pass leaves the array `gap`-sorted and permuted with at least one notification per `i` in `gap..n`; sorted input is unchanged |
| ShellSort.Sort | test.py:176-189 | sorted permutation; at least one placement per `i` of every pass, and exactly those on sorted input |
| TimSort.Sort | test.py:191-194 | sorted permutation, followed by `update(i, i)` for each index in order |
| CountingSort.Tally | test.py:199-202 | the table has `max + 1` entries and entry `v` counts the occurrences of `v` |
| CountingSort.UnpackedCounts | test.py:203-209 | unpacking the table yields each `v < m` exactly `count[v]` times and nothing else |
| CountingSort.UnpackedSorted | test.py:203-209 | the unpacked table is in non-decreasing order |
| CountingSort.WriteRun | test.py:205-209 | the inner `while` loop for `i` writes `c` copies of `i` after what was written before and notifies `update(idx, idx)` for each |
| CountingSort.Unpacks | test.py:199-209 | unpacking the full tally gives exactly the values of the input |
| CountingSort.Sort | test.py:196-209 | sorted permutation of the non-negative input with `update(k, k)` for each index in order; an empty list is returned unchanged with no notifications |
| Panel.NumBars | test.py:29 | the number of bars is the smaller of `len(arr)` and `width // 4` |
| Panel.Step | test.py:30 | `step` is the floor of `len(arr) / num_bars`: `num_bars` strides of `step` fit in the list, of `step + 1` do not |
| Panel.StridedFrom | test.py:31 | `arr[i::step]` is empty exactly when `i` is past the end, and never longer than the cells from `i` on |
| Panel.StridedLength | test.py:31 | `arr[i::step]` has `ceil((len(arr) - i) / step)` cells: its last index lies within one stride of the end |
| Panel.StridedAt | test.py:31 | element `k` of `arr[::step]` is `arr[k * step]` |
| Panel.StridedCovers | test.py:31 | every index `k * step` inside the list is reached by the slice |
| Panel.LastBarInside | test.py:29-30 | with at least 4 pixels of width there is at least one bar, the step is positive and the last bar's index is inside the list |
| Panel.Downsample | test.py:28-32 | the panel draws `min(len(arr), width // 4)` bars, bar `k` showing `arr[k * step]` |
| Agree.RunAll | test.py:213-218 | on a non-empty list of non-negative values, the ten sorts all return the list that `arr.sort()` returns |

## Left out

- Drawing, window handling and fonts are not modelled, because they are I/O. This covers `draw_bars_panel` after the downsampling, `draw_separators` and the `pygame` event loop. What a panel shows is reduced to the cells `Panel.Downsample` picks.
- Bar heights are left out. They are floating point: `norm_height = int((h / max_height) * ...)`.
- Threads and timing are left out: `timed_sort`, `sort_times` and `time.time()`. Each sort is modelled as a sequential method. The interleaving of the ten threads on shared drawing state is not modelled.
- `get_input_array` is left out because it draws random numbers. The model takes the list as a parameter. Random values lie in 10..1000, so they are non-negative and meet the requirements of the radix and counting sorts.
- The highlight `i % len(arr)` passed to the panel is left out. The model keeps the raw `update(i, j)` arguments instead.
- Python's `list.sort` is replaced by the reference `Builtin.ListSort`. The model does not reproduce its algorithm, only its result.
- RadixSort.Sort: requires a non-empty list, because `max(arr)` at test.py:170 raises an error on an empty one. On a list that contains negative values, only the permutation and the notification count are stated, not sortedness. Python's `(x // exp) % 10` gives a negative value a digit taken from its floor quotient, so such lists need not come out sorted. `RadixSort.Pass` models those digits exactly.
- CountingSort.Sort requires non-negative values. In the source, `count[num]` with a negative `num` indexes from the end of the table, or raises an error.
- Panel.Downsample requires a non-empty list and `width >= 4`. Otherwise `max(arr)` fails, or `len(arr) // num_bars` divides by zero.
- ShellSort.Sort: bounds the notifications from below but gives no upper bound on the shifts.
- HeapSort.Sort: bounds the notifications from below but does not state their exact count, which depends on the sift-down paths.
- QuickSort.Sort: states where the notifications fall but not their number.

=== FILE: agree.dfy ===
/** The ten sorts run on copies of one input array. Each leaves its copy
    sorted and a permutation of the input, and a sorted permutation is
    unique, so all ten panels end with the same array: the one the
    built-in sort produces. */
module Agree {
  import opened Common
  import Builtin
  import BubbleSort
  import SelectionSort
  import InsertionSort
  import MergeSort
  import QuickSort
  import HeapSort
  import RadixSort
  import ShellSort
  import TimSort
  import CountingSort

  /** Runs every sort on its own copy of `a`, which must be non-empty (for
      radix sort's `max`) and non-negative (for radix and counting sort),
      as the values `10..1000` of the generated input are. Returns the ten
      final arrays in the order of the panels. */
  method RunAll(a: seq<int>) returns (results: seq<seq<int>>)
    requires |a| > 0 && NonNegative(a)
    ensures |results| == 10
    ensures forall k :: 0 <= k < 10 ==> results[k] == Builtin.ListSort(a)
  {
    var r0, _ := BubbleSort.Sort(a);
    var r1, _, _ := SelectionSort.Sort(a);
    var r2, _ := InsertionSort.Sort(a);
    var r3, _ := MergeSort.Sort(a);
    var r4, _ := QuickSort.Sort(a);
    var r5, _ := HeapSort.Sort(a);
    var r6, _ := RadixSort.Sort(a);
    var r7, _ := ShellSort.Sort(a);
    var r8, _ := TimSort.Sort(a);
    var r9, _ := CountingSort.Sort(a);
    results := [r0, r1, r2, r3, r4, r5, r6, r7, r8, r9];
    forall k | 0 <= k < 10
      ensures results[k] == Builtin.ListSort(a)
    {
      Builtin.SortedPermutationIsListSort(a, results[k]);
    }
  }
}

=== FILE: bubble.dfy ===
/** `bubble_sort`: repeated passes of adjacent compare-and-swap; a notification
    follows every swap and nothing else. */
module BubbleSort {
  import opened Common
  import opened Inversion

  /** Every cell before `m` is at most every cell from `m` on, and the cells
      from `m` on are sorted: the state after `|s| - m` passes. */
  predicate Settled(s: seq<int>, m: int) {
    0 <= m <= |s| &&
    (forall p, q :: m <= p < q < |s| ==> s[p] <= s[q]) &&
    (forall p, q :: 0 <= p < m <= q < |s| ==> s[p] <= s[q])
  }

  /** Every notification is `update(j, j + 1)` for a pair of neighbours of `s`. */
  predicate Adjacent(updates: seq<Update>, n: int) {
    forall k :: 0 <= k < |updates| ==>
      0 <= updates[k].i && updates[k].j == updates[k].i + 1 && updates[k].j < n
  }

  /** The body of the inner loop at `j`: swap the neighbours if they are out of
      order. A swap removes exactly one inversion, keeps the settled tail and
      carries the largest value seen so far to index `j + 1`. */
  method CompareSwap(s: seq<int>, m: int, j: int) returns (r: seq<int>, swapped: bool)
    requires 0 <= j && j + 1 < m && Settled(s, m)
    requires forall p :: 0 <= p < j ==> s[p] <= s[j]
    ensures swapped <==> s[j] > s[j + 1]
    ensures r == if swapped then Swap(s, j, j + 1) else s
    ensures Settled(r, m) && forall p :: 0 <= p < j + 1 ==> r[p] <= r[j + 1]
    ensures Inversions(r) + (if swapped then 1 else 0) == Inversions(s)
  {
    swapped := s[j] > s[j + 1];
    if swapped {
      SwapAdjacentInversion(s, j);
      r := Swap(s, j, j + 1);
    } else {
      r := s;
    }
  }

  /** One pass of the inner loop over `j < m - 1`: it bubbles the largest of
      the first `m` cells up to index `m - 1`, leaving the cells from `m` on alone. */
  method Pass(arr: seq<int>, m: int) returns (r: seq<int>, updates: seq<Update>)
    requires 1 <= m <= |arr|
    requires Settled(arr, m)
    ensures Settled(r, m - 1)
    ensures SameOutside(arr, r, 0, m)
    ensures multiset(r) == multiset(arr)
    ensures |updates| + Inversions(r) == Inversions(arr)
    ensures Adjacent(updates, m)
  {
    r := arr;
    updates := [];
    var j := 0;
    while j < m - 1
      invariant 0 <= j <= m - 1
      invariant Settled(r, m)
      invariant SameOutside(arr, r, 0, m)
      invariant multiset(r) == multiset(arr)
      invariant |updates| + Inversions(r) == Inversions(arr)
      invariant forall p :: 0 <= p < j ==> r[p] <= r[j]
      invariant Adjacent(updates, m)
    {
      var swapped;
      r, swapped := CompareSwap(r, m, j);
      if swapped {
        updates := updates + [Update(j, j + 1)];
      }
      j := j + 1;
    }
  }

  /** Sorts `a`; `updates` lists the calls `update(j, j + 1)` in order.
      Each swap removes one inversion, so the notifications number exactly
      the inversions of the input, and none at all on sorted input. */
  method Sort(a: seq<int>) returns (r: seq<int>, updates: seq<Update>)
    ensures Sorted(r)
    ensures multiset(r) == multiset(a)
    ensures |updates| == Inversions(a)
    ensures updates == [] <==> Sorted(a)
    ensures Adjacent(updates, |a|)
  {
    var n := |a|;
    r := a;
    updates := [];
    var i := 0;
    while i < n
      invariant 0 <= i <= n && |r| == n
      invariant Settled(r, n - i)
      invariant multiset(r) == multiset(a)
      invariant |updates| + Inversions(r) == Inversions(a)
      invariant Adjacent(updates, n)
    {
      var u;
      r, u := Pass(r, n - i);
      updates := updates + u;
      i := i + 1;
    }
    assert Settled(r, 0);
    NoInversionsIffSorted(r);
    NoInversionsIffSorted(a);
  }
}

=== FILE: builtin.dfy ===
/** A reference sort standing in for Python's built-in `list.sort`, whose
    internals are not modelled: only its result matters, and a sorted
    permutation is unique. */
module Builtin {
  import opened Common

  /** `x` inserted into the sorted `s` before the first larger-or-equal value. */
  function Insert(x: int, s: seq<int>): (r: seq<int>)
    requires Sorted(s)
    ensures Sorted(r)
    ensures multiset(r) == multiset(s) + multiset{x}
    ensures |r| == |s| + 1 && (r[0] == x || (|s| > 0 && r[0] == s[0]))
  {
    if |s| == 0 || x <= s[0] then [x] + s
    else
      var t := Insert(x, s[1..]);
      assert s == [s[0]] + s[1..];
      assert forall k :: 0 <= k < |t| ==> s[0] <= t[k] by {
        assert t[0] == x || t[0] == s[1];
      }
      [s[0]] + t
  }

  /** The sorted permutation of `s`, as `arr.sort()` leaves it. */
  function ListSort(s: seq<int>): (r: seq<int>)
    ensures Sorted(r)
    ensures multiset(r) == multiset(s)
  {
    if |s| == 0 then []
    else
      assert s == [s[0]] + s[1..];
      Insert(s[0], ListSort(s[1..]))
  }

  /** Any sort agrees with the built-in one: a sorted permutation of `a` is
      `ListSort(a)`. */
  lemma SortedPermutationIsListSort(a: seq<int>, r: seq<int>)
    requires Sorted(r) && multiset(r) == multiset(a)
    ensures r == ListSort(a)
  {
    SortedPermutationUnique(r, ListSort(a));
  }
}

=== FILE: common.dfy ===
/** Shared vocabulary of the sorting routines: the progress notification, the
    ordering predicates and the permutation facts every sort relies on. */
module Common {

  /** One call `update(i, j)`: index `i` was written, and `j` is the second
      argument the sort passes. That is the other cell of a swap, the cell a
      value was copied from, the key's original index for a placement, or `i`
      itself when a sort rewrites cells in order. */
  datatype Update = Update(i: int, j: int)

  /** Every notification names two indices of an `n`-cell array. */
  predicate InBounds(updates: seq<Update>, n: int) {
    forall k :: 0 <= k < |updates| ==>
      0 <= updates[k].i < n && 0 <= updates[k].j < n
  }

  /** Non-decreasing order. */
  predicate Sorted(s: seq<int>) {
    forall p, q :: 0 <= p < q < |s| ==> s[p] <= s[q]
  }

  /** Non-decreasing order on the cells `[lo, hi)`. */
  predicate SortedBetween(s: seq<int>, lo: int, hi: int) {
    forall p, q :: lo <= p < q < hi && 0 <= p && q < |s| ==> s[p] <= s[q]
  }

  /** No value is negative. */
  predicate NonNegative(s: seq<int>) {
    forall k :: 0 <= k < |s| ==> s[k] >= 0
  }

  /** The largest value of `s`, as Python's `max(arr)`, which fails on an
      empty list. */
  function Max(s: seq<int>): (m: int)
    requires |s| > 0
    ensures m in s && forall k :: 0 <= k < |s| ==> s[k] <= m
  {
    if |s| == 1 then s[0]
    else
      var m := Max(s[..|s| - 1]);
      assert forall k :: 0 <= k < |s| - 1 ==> s[k] == s[..|s| - 1][k];
      if s[|s| - 1] > m then s[|s| - 1] else m
  }

  /** `x` and `y` have the same length and agree outside `[lo, hi)`. */
  predicate SameOutside(x: seq<int>, y: seq<int>, lo: int, hi: int) {
    |x| == |y| && forall p :: 0 <= p < |x| && (p < lo || hi <= p) ==> x[p] == y[p]
  }

  /** The notifications `update(k, k)` for `k = lo, lo + 1, ..., hi - 1`, in that order. */
  function Sweep(lo: int, hi: int): (t: seq<Update>)
    requires lo <= hi
    ensures |t| == hi - lo
    ensures forall k :: 0 <= k < |t| ==> t[k] == Update(lo + k, lo + k)
    decreases hi - lo
  {
    if lo == hi then [] else Sweep(lo, hi - 1) + [Update(hi - 1, hi - 1)]
  }

  /** `s` repeated `count` times. */
  function Repeat<T>(s: seq<T>, count: nat): (t: seq<T>)
    ensures |t| == |s| * count
  {
    if count == 0 then [] else Repeat(s, count - 1) + s
  }

  /** Exchanges the cells `i` and `j`, as the tuple assignment
      `arr[i], arr[j] = arr[j], arr[i]` does. */
  function Swap(s: seq<int>, i: int, j: int): (r: seq<int>)
    requires 0 <= i < |s| && 0 <= j < |s|
    ensures |r| == |s|
    ensures r[i] == s[j] && r[j] == s[i]
    ensures forall k :: 0 <= k < |s| && k != i && k != j ==> r[k] == s[k]
    ensures multiset(r) == multiset(s)
  {
    s[i := s[j]][j := s[i]]
  }

  /** The values of `x` are those of its three parts around `[lo, hi)`. */
  lemma SplitValues(x: seq<int>, lo: int, hi: int)
    requires 0 <= lo <= hi <= |x|
    ensures multiset(x) == multiset(x[..lo]) + multiset(x[lo..hi]) + multiset(x[hi..])
  {
    assert x == x[..lo] + x[lo..hi] + x[hi..];
  }

  /** Extending a prefix by one cell adds that cell's value. */
  lemma PrefixValues(a: seq<int>, k: int)
    requires 0 < k <= |a|
    ensures multiset(a[..k]) == multiset(a[..k - 1]) + multiset{a[k - 1]}
  {
    assert a[..k] == a[..k - 1] + [a[k - 1]];
  }

  /** A permutation of a segment, with the rest left alone, is a permutation of
      the whole sequence, and conversely. */
  lemma SegmentPermutation(x: seq<int>, y: seq<int>, lo: int, hi: int)
    requires 0 <= lo <= hi <= |x|
    requires SameOutside(x, y, lo, hi)
    ensures multiset(x[lo..hi]) == multiset(y[lo..hi]) <==> multiset(x) == multiset(y)
  {
    SplitValues(x, lo, hi);
    SplitValues(y, lo, hi);
    assert x[..lo] == y[..lo];
    assert x[hi..] == y[hi..];
    var rest := multiset(x[..lo]) + multiset(x[hi..]);
    if multiset(x) == multiset(y) {
      assert multiset(x[lo..hi]) == multiset(x) - rest;
      assert multiset(y[lo..hi]) == multiset(y) - rest;
    }
  }

  /** Every value of a permutation of `y` is a value of `y`. */
  lemma PermutedValues(x: seq<int>, y: seq<int>)
    requires multiset(x) == multiset(y)
    ensures forall p :: 0 <= p < |x| ==> exists q :: 0 <= q < |y| && y[q] == x[p]
  {
    forall p | 0 <= p < |x|
      ensures exists q :: 0 <= q < |y| && y[q] == x[p]
    {
      assert x[p] in multiset(x);
      assert x[p] in multiset(y);
      assert x[p] in y;
      var q :| 0 <= q < |y| && y[q] == x[p];
    }
  }

  /** Every cell of `[lo, hi)` is strictly below `v`. */
  ghost predicate Below(s: seq<int>, lo: int, hi: int, v: int) {
    0 <= lo && hi <= |s| && forall k :: lo <= k < hi ==> s[k] < v
  }

  /** Every cell of `[lo, hi)` is at least `v`. */
  ghost predicate AtLeast(s: seq<int>, lo: int, hi: int, v: int) {
    0 <= lo && hi <= |s| && forall k :: lo <= k < hi ==> v <= s[k]
  }

  /** Every cell of `[lo, hi)` is at most `v`. */
  ghost predicate AtMost(s: seq<int>, lo: int, hi: int, v: int) {
    0 <= lo && hi <= |s| && forall k :: lo <= k < hi ==> s[k] <= v
  }

  /** `v` is one of the cells `[lo, hi)` of `x`. */
  ghost predicate ValueIn(x: seq<int>, lo: int, hi: int, v: int) {
    exists q :: lo <= q < hi && 0 <= q < |x| && x[q] == v
  }

  /** A segment permuted in place holds, cell by cell, values of the
      original segment. */
  lemma SegmentValues(x: seq<int>, y: seq<int>, lo: int, hi: int)
    requires 0 <= lo <= hi <= |x|
    requires SameOutside(x, y, lo, hi) && multiset(x) == multiset(y)
    ensures forall k :: lo <= k < hi ==> ValueIn(x, lo, hi, y[k])
  {
    SegmentPermutation(x, y, lo, hi);
    PermutedValues(y[lo..hi], x[lo..hi]);
    forall k | lo <= k < hi
      ensures ValueIn(x, lo, hi, y[k])
    {
      var q :| 0 <= q < hi - lo && x[lo..hi][q] == y[lo..hi][k - lo];
      assert x[lo + q] == y[k];
    }
  }

  /** A sorted permutation is unique: two sorted sequences with the same
      multiset of values are equal. */
  lemma {:induction false} SortedPermutationUnique(x: seq<int>, y: seq<int>)
    requires Sorted(x) && Sorted(y)
    requires multiset(x) == multiset(y)
    ensures x == y
    decreases |x|
  {
    if |x| == 0 {
      assert |multiset(y)| == 0;
    } else {
      assert |y| == |multiset(y)| == |x|;
      SameLeast(x, y);
      assert x == [x[0]] + x[1..];
      assert y == [y[0]] + y[1..];
      assert multiset(x[1..]) == multiset(x) - multiset{x[0]};
      assert multiset(y[1..]) == multiset(y) - multiset{y[0]};
      SortedPermutationUnique(x[1..], y[1..]);
    }
  }

  /** Two non-empty sorted sequences with the same values start with the same
      (least) value. */
  lemma SameLeast(x: seq<int>, y: seq<int>)
    requires Sorted(x) && Sorted(y) && |x| > 0 && |y| > 0
    requires multiset(x) == multiset(y)
    ensures x[0] == y[0]
  {
    assert x[0] in multiset(y);
    assert y[0] in multiset(x);
    var q :| 0 <= q < |y| && y[q] == x[0];
    var p :| 0 <= p < |x| && x[p] == y[0];
    assert y[0] <= x[0] && x[0] <= y[0];
  }

  /** Joining two sorted runs around a separating value gives a sorted run. */
  lemma JoinSorted(x: seq<int>, v: int, y: seq<int>)
    requires Sorted(x) && Sorted(y)
    requires forall p :: 0 <= p < |x| ==> x[p] <= v
    requires forall q :: 0 <= q < |y| ==> v <= y[q]
    ensures Sorted(x + [v] + y)
  {
  }
}

=== FILE: counting.dfy ===
/** `counting_sort`: tally every value of a non-negative list in a table
    indexed by value, then write the values back in increasing order,
    notifying `update(idx, idx)` for every write. An empty list is left as
    it is, with no notification. */
module CountingSort {
  import opened Common

  /** Value `v` written `c` times. */
  function Run(v: int, c: nat): (r: seq<int>)
    ensures |r| == c && forall k :: 0 <= k < c ==> r[k] == v
  {
    if c == 0 then [] else Run(v, c - 1) + [v]
  }

  /** What unpacking the table `count[..m]` writes: each value `i < m`
      repeated `count[i]` times, in increasing order of `i`. */
  function Unpacked(count: seq<nat>, m: int): seq<int>
    requires 0 <= m <= |count|
  {
    if m == 0 then [] else Unpacked(count, m - 1) + Run(m - 1, count[m - 1])
  }

  /** The unpacked table holds only values below `m`. */
  lemma {:induction false} UnpackedBelow(count: seq<nat>, m: int)
    requires 0 <= m <= |count|
    ensures forall k :: 0 <= k < |Unpacked(count, m)| ==> 0 <= Unpacked(count, m)[k] < m
    decreases m
  {
    if m != 0 {
      UnpackedBelow(count, m - 1);
      var u, w := Unpacked(count, m - 1), Run(m - 1, count[m - 1]);
      assert forall k :: 0 <= k < |u + w| ==> (u + w)[k] == if k < |u| then u[k] else w[k - |u|];
    }
  }

  /** The unpacked table is sorted. */
  lemma {:induction false} UnpackedSorted(count: seq<nat>, m: int)
    requires 0 <= m <= |count|
    ensures Sorted(Unpacked(count, m))
    decreases m
  {
    if m != 0 {
      UnpackedSorted(count, m - 1);
      UnpackedBelow(count, m - 1);
      var u, w := Unpacked(count, m - 1), Run(m - 1, count[m - 1]);
      assert forall k :: 0 <= k < |u + w| ==> (u + w)[k] == if k < |u| then u[k] else w[k - |u|];
    }
  }

  /** The unpacked table holds each value `v < m` exactly `count[v]` times
      and nothing else. */
  lemma {:induction false} UnpackedCounts(count: seq<nat>, m: int)
    requires 0 <= m <= |count|
    ensures forall v :: multiset(Unpacked(count, m))[v] == if 0 <= v < m then count[v] else 0
    decreases m
  {
    if m != 0 {
      UnpackedCounts(count, m - 1);
      var u, w := Unpacked(count, m - 1), Run(m - 1, count[m - 1]);
      RunValues(m - 1, count[m - 1]);
      ConcatValues(u, w);
      forall v
        ensures multiset(Unpacked(count, m))[v] == if 0 <= v < m then count[v] else 0
      {
        assert multiset(u + w)[v] == multiset(u)[v] + multiset(w)[v];
      }
    }
  }

  /** The values of a concatenation are those of its parts. */
  lemma ConcatValues(x: seq<int>, y: seq<int>)
    ensures multiset(x + y) == multiset(x) + multiset(y)
  {
  }

  /** A run holds its value `c` times and nothing else. */
  lemma {:induction false} RunValues(v: int, c: nat)
    ensures forall w :: multiset(Run(v, c))[w] == if w == v then c else 0
    decreases c
  {
    if c > 0 {
      RunValues(v, c - 1);
      ConcatValues(Run(v, c - 1), [v]);
    }
  }

  /** `count[v]` is how often `v` occurs in `a[..k]`, for every `v` in the table. */
  ghost predicate Tallied(count: seq<nat>, a: seq<int>, k: int)
    requires 0 <= k <= |a|
  {
    forall v :: 0 <= v < |count| ==> count[v] == multiset(a[..k])[v]
  }

  /** Counting one more cell keeps the table exact. */
  lemma TallyStep(count: seq<nat>, a: seq<int>, k: int)
    requires 0 <= k < |a| && 0 <= a[k] < |count| && Tallied(count, a, k)
    ensures Tallied(count[a[k] := count[a[k]] + 1], a, k + 1)
  {
    PrefixValues(a, k + 1);
    var c := count[a[k] := count[a[k]] + 1];
    forall v | 0 <= v < |c|
      ensures c[v] == multiset(a[..k + 1])[v]
    {
      assert multiset(a[..k + 1])[v] == multiset(a[..k])[v] + multiset{a[k]}[v];
    }
  }

  /** The first loop, `count[num] += 1` for every `num` in `a`. */
  method Tally(a: seq<int>, max: int) returns (count: seq<nat>)
    requires NonNegative(a) && forall k :: 0 <= k < |a| ==> a[k] <= max
    requires max >= 0
    ensures |count| == max + 1 && Tallied(count, a, |a|)
  {
    count := seq(max + 1, _ => 0);
    var k := 0;
    while k < |a|
      invariant 0 <= k <= |a| && |count| == max + 1 && Tallied(count, a, k)
    {
      TallyStep(count, a, k);
      count := count[a[k] := count[a[k]] + 1];
      k := k + 1;
    }
  }

  /** The unpacking loops, up to value `i` with `c` of its copies still to write. */
  ghost predicate Unpacking(r: seq<int>, n: int, count: seq<nat>, idx: int, i: int, c: int) {
    0 <= i < |count| && 0 <= c <= count[i] && |r| == n &&
    idx == |Unpacked(count, i)| + (count[i] - c) && idx <= n &&
    r[..idx] == Unpacked(count, i) + Run(i, count[i] - c)
  }

  /** Unpacking writes at most the whole table. */
  lemma {:induction false} UnpackedGrows(count: seq<nat>, m: int, m': int)
    requires 0 <= m <= m' <= |count|
    ensures |Unpacked(count, m)| <= |Unpacked(count, m')|
    decreases m'
  {
    if m < m' {
      UnpackedGrows(count, m, m' - 1);
    }
  }

  /** The inner loop for value `i`: `arr[idx] = i`, `update(idx, idx)`,
      `idx += 1`, `c -= 1` while `c > 0`. It extends the unpacked prefix
      from the values below `i` to the values below `i + 1`. */
  method WriteRun(r: seq<int>, count: seq<nat>, idx: int, i: int, updates: seq<Update>)
    returns (r': seq<int>, idx': int, updates': seq<Update>)
    requires 0 <= i < |count| && |Unpacked(count, |count|)| == |r|
    requires idx == |Unpacked(count, i)| <= |r| && r[..idx] == Unpacked(count, i)
    requires updates == Sweep(0, idx)
    ensures |r'| == |r|
    ensures idx' == |Unpacked(count, i + 1)| <= |r'| && r'[..idx'] == Unpacked(count, i + 1)
    ensures updates' == Sweep(0, idx')
  {
    r', idx', updates' := r, idx, updates;
    var c := count[i];
    UnpackedGrows(count, i + 1, |count|);
    assert Unpacked(count, i) + Run(i, 0) == Unpacked(count, i);
    while c > 0
      invariant Unpacking(r', |r|, count, idx', i, c) && updates' == Sweep(0, idx')
    {
      assert r'[..idx' + 1] == r'[..idx'] + [r'[idx']];
      r' := r'[idx' := i];
      assert r'[..idx' + 1] == r'[..idx'] + [i];
      assert Run(i, count[i] - c + 1) == Run(i, count[i] - c) + [i];
      updates' := updates' + [Update(idx', idx')];
      idx' := idx' + 1;
      c := c - 1;
    }
  }

  /** Sorts the non-negative `a`: after the tally, `a` is overwritten from
      index 0 with the unpacked table, one notification per write. */
  method Sort(a: seq<int>) returns (r: seq<int>, updates: seq<Update>)
    requires NonNegative(a)
    ensures Sorted(r)
    ensures multiset(r) == multiset(a)
    ensures updates == Sweep(0, |a|)
  {
    r := a;
    updates := [];
    if |a| == 0 {
      return;
    }
    var max := Max(a);
    var count := Tally(a, max);
    assert a[..|a|] == a;
    UnpackedSorted(count, |count|);
    Unpacks(a, count, max);
    var idx := 0;
    var i := 0;
    while i < |count|
      invariant 0 <= i <= |count| && |r| == |a|
      invariant idx == |Unpacked(count, i)| <= |r| && r[..idx] == Unpacked(count, i)
      invariant updates == Sweep(0, idx)
    {
      r, idx, updates := WriteRun(r, count, idx, i, updates);
      i := i + 1;
    }
    assert r == r[..idx];
  }

  /** Unpacking the full tally of `a` gives back exactly the values of `a`. */
  lemma Unpacks(a: seq<int>, count: seq<nat>, max: int)
    requires max >= 0 && |count| == max + 1 && Tallied(count, a, |a|) && a[..|a|] == a
    requires NonNegative(a) && forall k :: 0 <= k < |a| ==> a[k] <= max
    ensures multiset(Unpacked(count, |count|)) == multiset(a)
    ensures |Unpacked(count, |count|)| == |a|
  {
    UnpackedCounts(count, |count|);
    forall v
      ensures multiset(Unpacked(count, |count|))[v] == multiset(a)[v]
    {
      if !(0 <= v <= max) {
        assert forall k :: 0 <= k < |a| ==> a[k] != v;
        assert v !in multiset(a);
      }
    }
    assert multiset(Unpacked(count, |count|)) == multiset(a);
    assert |Unpacked(count, |count|)| == |multiset(Unpacked(count, |count|))|;
  }
}

=== FILE: heap.dfy ===
/** `heap_sort`: builds a max-heap bottom-up with the recursive sift-down
    `heapify`, then repeatedly swaps the root to the end of the shrinking heap
    and sifts the new root down. Every swap is notified. */
module HeapSort {
  import opened Common

  /** The parent of node `c > 0` in the array layout with children `2p + 1`
      and `2p + 2`. */
  function Parent(c: int): int {
    (c - 1) / 2
  }

  /** Node `c` is no larger than its parent. */
  predicate ChildOk(a: seq<int>, c: int) {
    0 < c < |a| && a[c] <= a[Parent(c)]
  }

  /** Every node `p >= lo` of the heap `a[..n]` is at least each of its
      children. */
  ghost predicate HeapFrom(a: seq<int>, n: int, lo: int) {
    0 <= n <= |a| && forall c :: 0 < c < n && lo <= Parent(c) ==> ChildOk(a, c)
  }

  /** The heap `a[..n]` from node `lo` on is intact except possibly at node
      `i`, whose children are nevertheless no larger than `i`'s parent when
      that parent is in range. */
  ghost predicate HeapExcept(a: seq<int>, n: int, lo: int, i: int) {
    0 <= lo <= i < n <= |a| &&
    (forall c :: 0 < c < n && lo <= Parent(c) && Parent(c) != i ==> ChildOk(a, c)) &&
    (forall c :: 0 < c < n && Parent(c) == i && 0 < i && lo <= Parent(i) ==> a[c] <= a[Parent(i)])
  }

  /** Every notification `update(i, j)` names a node `i >= lo` and a later
      node `j` of the heap `[0, n)`. */
  predicate Downward(updates: seq<Update>, lo: int, n: int) {
    forall t :: 0 <= t < |updates| ==> lo <= updates[t].i < updates[t].j < n
  }

  /** The notifications trace one path down the tree: each names a node and
      one of its children, and each starts at the child the previous one
      ended at. */
  predicate SiftPath(updates: seq<Update>) {
    (forall t :: 0 <= t < |updates| ==>
      updates[t].j == 2 * updates[t].i + 1 || updates[t].j == 2 * updates[t].i + 2) &&
    (forall t :: 0 <= t < |updates| - 1 ==> updates[t + 1].i == updates[t].j)
  }

  lemma DownwardJoin(u: seq<Update>, v: seq<Update>, lo: int, m: int, n: int)
    requires Downward(u, lo, n) && Downward(v, lo, m) && m <= n
    ensures Downward(u + v, lo, n)
  {
  }

  /** The choice made by `heapify(n, i)`: the largest of `i` and its children
      below `n`, the left child winning only when strictly larger than `i`
      and the right child only when strictly larger than that. */
  function Largest(a: seq<int>, n: int, i: int): (m: int)
    requires 0 <= i < n <= |a|
    ensures m == i || m == 2 * i + 1 || m == 2 * i + 2
    ensures i <= m < n
    ensures forall c :: 0 < c < n && Parent(c) == i ==> a[c] <= a[m]
    ensures a[i] <= a[m]
  {
    var l, r := 2 * i + 1, 2 * i + 2;
    var m := if l < n && a[l] > a[i] then l else i;
    if r < n && a[r] > a[m] then r else m
  }

  /** Swapping node `i` with its largest child moves the one possible defect
      down to that child. */
  lemma SwapDown(a: seq<int>, n: int, lo: int, i: int, m: int)
    requires HeapExcept(a, n, lo, i) && m == Largest(a, n, i) && m != i
    ensures HeapExcept(Swap(a, i, m), n, lo, m)
  {
    var b := Swap(a, i, m);
    forall c | 0 < c < n && lo <= Parent(c) && Parent(c) != m
      ensures ChildOk(b, c)
    {
      if Parent(c) != i && c != i {
        assert ChildOk(a, c);
      }
    }
    forall c | 0 < c < n && Parent(c) == m
      ensures b[c] <= b[Parent(m)]
    {
      assert ChildOk(a, c);
    }
  }

  /** A node no smaller than its children closes the defect. */
  lemma NodeOkHeap(a: seq<int>, n: int, lo: int, i: int)
    requires HeapExcept(a, n, lo, i) && Largest(a, n, i) == i
    ensures HeapFrom(a, n, lo)
  {
    forall c | 0 < c < n && lo <= Parent(c)
      ensures ChildOk(a, c)
    {
    }
  }

  /** `heapify(n, i)`: sifts `a[i]` down until it is no smaller than its
      children, restoring the heap from `lo` on. Only node `i` and the nodes
      below it in the heap change, and each swap is notified as
      `update(parent, child)`. A node already in place is left alone, with no
      notification. */
  method Heapify(arr: seq<int>, n: int, i: int, ghost lo: int) returns (res: seq<int>, updates: seq<Update>)
    requires HeapExcept(arr, n, lo, i)
    ensures HeapFrom(res, n, lo)
    ensures SameOutside(arr, res, i, n) && multiset(res) == multiset(arr)
    ensures Downward(updates, i, n) && SiftPath(updates)
    ensures Largest(arr, n, i) == i ==> res == arr && updates == []
    ensures Largest(arr, n, i) != i ==>
      |updates| >= 1 && updates[0] == Update(i, Largest(arr, n, i)) && res[i] == arr[Largest(arr, n, i)]
    decreases n - i
  {
    var largest := Largest(arr, n, i);
    if largest != i {
      SwapDown(arr, n, lo, i, largest);
      var swapped := Swap(arr, i, largest);
      var u;
      res, u := Heapify(swapped, n, largest, lo);
      updates := [Update(i, largest)] + u;
      DownwardJoin([Update(i, largest)], u, i, n, n);
      assert |u| > 0 ==> u[0].i == largest;
    } else {
      NodeOkHeap(arr, n, lo, i);
      res, updates := arr, [];
    }
  }

  /** Nodes from `n / 2` on have no children below `n`. */
  lemma LeavesHeap(a: seq<int>, n: int)
    requires 0 <= n <= |a|
    ensures HeapFrom(a, n, n / 2)
  {
  }

  /** A heap from node `i + 1` on is a heap from `i` on except at node `i`. */
  lemma ExtendHeap(a: seq<int>, n: int, i: int)
    requires 0 <= i < n && HeapFrom(a, n, i + 1)
    ensures HeapExcept(a, n, i, i)
  {
    forall c | 0 < c < n && i <= Parent(c) && Parent(c) != i
      ensures ChildOk(a, c)
    {
    }
  }

  /** The root of a heap is its maximum. */
  lemma {:induction false} HeapRootMax(a: seq<int>, n: int, k: int)
    requires HeapFrom(a, n, 0) && 0 <= k < n
    ensures a[k] <= a[0]
    decreases k
  {
    if k > 0 {
      assert ChildOk(a, k);
      HeapRootMax(a, n, Parent(k));
    }
  }

  /** The first loop of `heap_sort`: `heapify(n, i)` for `i` from `n / 2 - 1`
      down to `0` turns the array into a max-heap, whose root is the
      maximum. */
  method BuildHeap(a: seq<int>) returns (res: seq<int>, updates: seq<Update>)
    ensures HeapFrom(res, |a|, 0) && |res| == |a| && multiset(res) == multiset(a)
    ensures forall k :: 0 <= k < |a| ==> res[k] <= res[0]
    ensures Downward(updates, 0, |a|)
  {
    var n := |a|;
    res := a;
    updates := [];
    var i := n / 2 - 1;
    LeavesHeap(a, n);
    while i >= 0
      invariant -1 <= i < n && |res| == n
      invariant HeapFrom(res, n, i + 1) && multiset(res) == multiset(a)
      invariant Downward(updates, 0, n)
    {
      ExtendHeap(res, n, i);
      var u;
      res, u := Heapify(res, n, i, i);
      DownwardJoin(updates, u, 0, n, n);
      updates := updates + u;
      i := i - 1;
    }
    forall k | 0 <= k < n
      ensures res[k] <= res[0]
    {
      HeapRootMax(res, n, k);
    }
  }

  /** The state of the second loop of `heap_sort` before the step for `i`:
      `a[..i + 1]` is a heap, `a[i + 1..]` is sorted and no cell of the heap
      exceeds the first cell after it. */
  ghost predicate Extracting(a: seq<int>, i: int) {
    -1 <= i < |a| && HeapFrom(a, i + 1, 0) && SortedBetween(a, i + 1, |a|) &&
    (i + 1 < |a| ==> AtMost(a, 0, i + 1, a[i + 1]))
  }

  /** Swapping the root of the heap `a[..i + 1]` with its last node leaves a
      heap `a[..i]` that is intact except possibly at the root. */
  lemma SwapRoot(a: seq<int>, i: int)
    requires 0 < i < |a| && HeapFrom(a, i + 1, 0)
    ensures HeapExcept(Swap(a, 0, i), i, 0, 0)
  {
    var b := Swap(a, 0, i);
    forall c | 0 < c < i && 0 <= Parent(c) && Parent(c) != 0
      ensures ChildOk(b, c)
    {
      assert ChildOk(a, c);
    }
  }

  /** After the maximum `s[0]` of the heap `s[..i + 1]` is swapped to `i`
      and the rest of the heap is repaired into `res`, the sorted part has
      grown by one cell. */
  lemma Extracted(s: seq<int>, swapped: seq<int>, res: seq<int>, i: int)
    requires 0 < i && Extracting(s, i) && swapped == Swap(s, 0, i)
    requires HeapFrom(res, i, 0) && SameOutside(swapped, res, 0, i) && multiset(res) == multiset(swapped)
    ensures Extracting(res, i - 1)
    ensures res[i] == s[0] && forall k :: 0 <= k <= i ==> s[k] <= res[i]
  {
    forall k | 0 <= k <= i
      ensures s[k] <= s[0]
    {
      HeapRootMax(s, i + 1, k);
    }
    SegmentValues(swapped, res, 0, i);
    assert AtMost(swapped, 0, i, s[0]);
    forall k | 0 <= k < i
      ensures res[k] <= res[i]
    {
      var q :| 0 <= q < i && swapped[q] == res[k];
    }
    assert AtMost(res, 0, i, res[i]);
    assert SortedBetween(res, i, |res|);
  }

  /** One step of the second loop: the root, the maximum of the heap
      `a[..i + 1]`, is swapped to `i` (notified as `update(0, i)`) and the
      heap `a[..i]` repaired by `heapify(i, 0)`. The maximum lands at `i` and
      `a[i..]` is sorted. */
  method Extract(s: seq<int>, i: int) returns (res: seq<int>, updates: seq<Update>)
    requires 0 < i && Extracting(s, i)
    ensures SameOutside(s, res, 0, i + 1) && multiset(res) == multiset(s)
    ensures Extracting(res, i - 1)
    ensures res[i] == s[0] && forall k :: 0 <= k <= i ==> s[k] <= res[i]
    ensures |updates| >= 1 && updates[0] == Update(0, i) && Downward(updates, 0, |s|)
  {
    var swapped := Swap(s, 0, i);
    SwapRoot(s, i);
    var u;
    res, u := Heapify(swapped, i, 0, 0);
    updates := [Update(0, i)] + u;
    DownwardJoin([Update(0, i)], u, 0, i, |s|);
    Extracted(s, swapped, res, i);
  }

  /** `heap_sort(arr, update)`: sorts `a`. Each notification swaps a node
      with a later one, and there is at least one per extraction. */
  method Sort(a: seq<int>) returns (r: seq<int>, updates: seq<Update>)
    ensures Sorted(r)
    ensures multiset(r) == multiset(a)
    ensures Downward(updates, 0, |a|)
    ensures |updates| >= |a| - 1
  {
    var n := |a|;
    r, updates := BuildHeap(a);
    var i := n - 1;
    while i > 0
      invariant Extracting(r, i) && |r| == n && multiset(r) == multiset(a)
      invariant Downward(updates, 0, n) && |updates| >= n - 1 - i
    {
      var u;
      r, u := Extract(r, i);
      DownwardJoin(updates, u, 0, n, n);
      updates := updates + u;
      i := i - 1;
    }
    if n > 1 {
      assert r[0] <= r[1];
    }
  }
}

=== FILE: insertion.dfy ===
/** `insertion_sort`: each `arr[i]` is carried left past the larger cells
    before it; every shift and the final placement are notified. */
module InsertionSort {
  import opened Common
  import opened Inversion

  /** `s` with `s[i]` moved down to index `hole` and `s[hole..i]` moved up one
      place: the array after the key has been inserted at `hole`. */
  function Rotated(s: seq<int>, hole: int, i: int): (t: seq<int>)
    requires 0 <= hole <= i < |s|
    ensures |t| == |s|
  {
    seq(|s|, p requires 0 <= p < |s| =>
      if p < hole || i < p then s[p] else if p == hole then s[i] else s[p - 1])
  }

  /** Moving the key down past `i - hole` larger cells is that many swaps of
      adjacent inversions: it keeps the values and removes exactly `i - hole`
      inversions. */
  lemma {:induction false} RotatedInversions(s: seq<int>, hole: int, i: int)
    requires 0 <= hole <= i < |s|
    requires forall q :: hole <= q < i ==> s[q] > s[i]
    ensures multiset(Rotated(s, hole, i)) == multiset(s)
    ensures Inversions(Rotated(s, hole, i)) + (i - hole) == Inversions(s)
    decreases i - hole
  {
    if hole == i {
      assert Rotated(s, hole, i) == s;
    } else {
      var t := Rotated(s, hole + 1, i);
      RotatedInversions(s, hole + 1, i);
      RotatedStep(s, hole, i);
      SwapAdjacentInversion(t, hole);
    }
  }

  /** Inserting one place further down is one more swap of neighbours. */
  lemma RotatedStep(s: seq<int>, hole: int, i: int)
    requires 0 <= hole < i < |s|
    ensures Rotated(s, hole, i) == Swap(Rotated(s, hole + 1, i), hole, hole + 1)
  {
  }

  /** `s` with `s[hole..i]` copied one place up, as the shifts leave it: the
      cell at `hole` still holds its old value until the key is written. */
  function ShiftedUp(s: seq<int>, hole: int, i: int): (t: seq<int>)
    requires 0 <= hole <= i < |s|
    ensures |t| == |s|
  {
    seq(|s|, p requires 0 <= p < |s| => if hole < p <= i then s[p - 1] else s[p])
  }

  /** The inner `while` loop for one `i`: the cells of the sorted prefix
      larger than `key = s[i]` move one place right, one notification
      `update(j + 1, j)` each, leaving a hole where the key belongs. */
  method ShiftRight(s: seq<int>, i: int) returns (r: seq<int>, hole: int, updates: seq<Update>)
    requires 0 < i < |s|
    ensures 0 <= hole <= i && r == ShiftedUp(s, hole, i)
    ensures hole == 0 || s[hole - 1] <= s[i]
    ensures forall q :: hole <= q < i ==> s[q] > s[i]
    ensures |updates| == i - hole
    ensures forall t :: 0 <= t < |updates| ==> updates[t] == Update(i - t, i - 1 - t)
    ensures InBounds(updates, |s|)
    ensures s[i - 1] <= s[i] ==> hole == i
  {
    var key := s[i];
    r := s;
    updates := [];
    var j := i - 1;
    assert r == ShiftedUp(s, i, i);
    while j >= 0 && r[j] > key
      invariant -1 <= j < i && r == ShiftedUp(s, j + 1, i)
      invariant forall q :: j < q < i ==> s[q] > key
      invariant |updates| == i - 1 - j
      invariant forall t :: 0 <= t < |updates| ==> updates[t] == Update(i - t, i - 1 - t)
      invariant InBounds(updates, |s|)
      invariant s[i - 1] <= s[i] ==> j == i - 1
    {
      assert r[j + 1 := r[j]] == ShiftedUp(s, j, i);
      r := r[j + 1 := r[j]];
      updates := updates + [Update(j + 1, j)];
      j := j - 1;
    }
    hole := j + 1;
  }

  /** Writing the key into the hole left by the shifts extends the sorted
      prefix by one cell and touches nothing after `i`. */
  lemma PlaceKey(s: seq<int>, hole: int, i: int, r: seq<int>)
    requires 0 <= hole <= i < |s|
    requires forall p, q :: 0 <= p < q < i ==> s[p] <= s[q]
    requires hole == 0 || s[hole - 1] <= s[i]
    requires forall q :: hole <= q < i ==> s[q] > s[i]
    requires r == ShiftedUp(s, hole, i)[hole := s[i]]
    ensures SameOutside(s, r, 0, i + 1)
    ensures forall p, q :: 0 <= p < q <= i ==> r[p] <= r[q]
  {
    forall p, q | 0 <= p < q <= i
      ensures r[p] <= r[q]
    {
      if q == hole {
        assert r[p] == s[p];
      } else if p == hole {
        assert r[q] == s[q - 1];
      } else if q <= hole {
        assert r[p] == s[p] && r[q] == s[q];
      } else if p < hole {
        assert r[p] == s[p] && r[q] == s[q - 1];
      } else {
        assert r[p] == s[p - 1] && r[q] == s[q - 1];
      }
    }
  }

  /** One outer step: shift, then `arr[j + 1] = key` and `update(j + 1, i)`.
      The prefix `arr[..i + 1]` ends sorted, and the notifications beyond the one
      placement number the inversions removed. */
  method Insert(s: seq<int>, i: int) returns (r: seq<int>, updates: seq<Update>)
    requires 0 < i < |s|
    requires forall p, q :: 0 <= p < q < i ==> s[p] <= s[q]
    ensures SameOutside(s, r, 0, i + 1)
    ensures forall p, q :: 0 <= p < q <= i ==> r[p] <= r[q]
    ensures multiset(r) == multiset(s)
    ensures |updates| + Inversions(r) == 1 + Inversions(s)
    ensures InBounds(updates, |s|) && |updates| >= 1 && updates[|updates| - 1].j == i
    ensures s[i - 1] <= s[i] ==> r == s && updates == [Update(i, i)]
  {
    var shifted, hole;
    shifted, hole, updates := ShiftRight(s, i);
    r := shifted[hole := s[i]];
    updates := updates + [Update(hole, i)];
    PlaceKey(s, hole, i, r);
    assert r == Rotated(s, hole, i);
    RotatedInversions(s, hole, i);
  }

  /** Sorts `a`. Each of the `n - 1` outer steps ends with one placement and
      each shift removes one inversion, so the notifications number exactly
      `n - 1` plus the inversions of the input: `n - 1` on sorted input. */
  method Sort(a: seq<int>) returns (r: seq<int>, updates: seq<Update>)
    ensures Sorted(r)
    ensures multiset(r) == multiset(a)
    ensures |updates| == (if |a| == 0 then 0 else |a| - 1) + Inversions(a)
    ensures Sorted(a) ==> r == a && |updates| == (if |a| == 0 then 0 else |a| - 1)
    ensures InBounds(updates, |a|)
  {
    var n := |a|;
    r := a;
    updates := [];
    var i := 1;
    while i < n
      invariant (0 < i <= n || (n == 0 && i == 1)) && |r| == n
      invariant forall p, q :: 0 <= p < q < i ==> r[p] <= r[q]
      invariant multiset(r) == multiset(a)
      invariant |updates| + Inversions(r) == (i - 1) + Inversions(a)
      invariant InBounds(updates, n)
      invariant Sorted(a) ==> r == a
    {
      var u;
      r, u := Insert(r, i);
      updates := updates + u;
      i := i + 1;
    }
    NoInversionsIffSorted(r);
    NoInversionsIffSorted(a);
  }
}

=== FILE: inversions.dfy ===
/** The number of inversions of a sequence: pairs of positions `p < q` with
    `s[p] > s[q]`.  Swapping an adjacent inversion removes exactly one, which is
    what bubble and insertion sort do at every notified shift or swap. */
module Inversion {
  import opened Common

  /** How many elements of `t` are strictly smaller than `x`. */
  function Smaller(x: int, t: seq<int>): (c: nat)
    ensures c <= |t|
  {
    if |t| == 0 then 0 else (if t[0] < x then 1 else 0) + Smaller(x, t[1..])
  }

  /** Inversions counted from the front: each element against everything after it. */
  function Inversions(s: seq<int>): nat {
    if |s| == 0 then 0 else Smaller(s[0], s[1..]) + Inversions(s[1..])
  }

  /** `Smaller` is zero exactly when no element of `t` is below `x`. */
  lemma {:induction false} SmallerZero(x: int, t: seq<int>)
    ensures Smaller(x, t) == 0 <==> forall q :: 0 <= q < |t| ==> x <= t[q]
    decreases |t|
  {
    if |t| > 0 {
      SmallerZero(x, t[1..]);
      assert forall q :: 1 <= q < |t| ==> t[q] == t[1..][q - 1];
    }
  }

  /** Swapping two neighbours of `t` does not change how many of them are below `x`. */
  lemma {:induction false} SmallerSwap(x: int, t: seq<int>, j: nat)
    requires j + 1 < |t|
    ensures Smaller(x, Swap(t, j, j + 1)) == Smaller(x, t)
    decreases j
  {
    var t' := Swap(t, j, j + 1);
    if j == 0 {
      assert t'[1..][1..] == t[1..][1..];
    } else {
      assert t'[1..] == Swap(t[1..], j - 1, j);
      SmallerSwap(x, t[1..], j - 1);
    }
  }

  /** Swapping an adjacent inversion removes exactly one inversion. */
  lemma {:induction false} SwapAdjacentInversion(s: seq<int>, j: nat)
    requires j + 1 < |s| && s[j] > s[j + 1]
    ensures Inversions(Swap(s, j, j + 1)) + 1 == Inversions(s)
    decreases j
  {
    var s' := Swap(s, j, j + 1);
    if j == 0 {
      var t := s[2..];
      assert s[1..] == [s[1]] + t && s[1..][1..] == t;
      assert s'[1..] == [s[0]] + t && s'[1..][1..] == t;
      assert Smaller(s[0], s[1..]) == 1 + Smaller(s[0], t);
      assert Smaller(s[1], s'[1..]) == Smaller(s[1], t);
    } else {
      assert s'[1..] == Swap(s[1..], j - 1, j);
      SwapAdjacentInversion(s[1..], j - 1);
      SmallerSwap(s[0], s[1..], j - 1);
    }
  }

  /** A sequence has no inversion exactly when it is sorted. */
  lemma {:induction false} NoInversionsIffSorted(s: seq<int>)
    ensures Inversions(s) == 0 <==> Sorted(s)
    decreases |s|
  {
    if |s| > 0 {
      NoInversionsIffSorted(s[1..]);
      SmallerZero(s[0], s[1..]);
      assert forall q :: 1 <= q < |s| ==> s[q] == s[1..][q - 1];
      if Sorted(s) {
        assert Sorted(s[1..]);
      }
    }
  }

  /** At most every pair is inverted: `Inversions(s) <= n (n - 1) / 2`. */
  lemma {:induction false} InversionsBound(s: seq<int>)
    ensures 2 * Inversions(s) <= |s| * (|s| - 1)
    decreases |s|
  {
    if |s| > 0 {
      InversionsBound(s[1..]);
      var n := |s|;
      assert 2 * Inversions(s) <= 2 * (n - 1) + (n - 1) * (n - 2);
      assert 2 * (n - 1) + (n - 1) * (n - 2) == n * (n - 1);
    }
  }
}

=== FILE: merge.dfy ===
/** `merge_sort`: top-down recursion on the inclusive range `[left, right]`,
    merging the two sorted halves back into `arr` one write and one
    notification `update(k, k)` at a time. */
module MergeSort {
  import opened Common

  /** The notifications made by `merge_rec(left, right)`: every merge writes
      its whole range once, after the halves `[left, mid]` and
      `[mid + 1, right]` have made theirs. */
  function MergeWrites(left: int, right: int): nat
    decreases right - left
  {
    if left >= right then 0
    else
      var mid := (left + right) / 2;
      (right - left + 1) + MergeWrites(left, mid) + MergeWrites(mid + 1, right)
  }

  /** The count depends only on the length of the range. */
  lemma {:induction false} MergeWritesShift(left: int, right: int, d: int)
    ensures MergeWrites(left + d, right + d) == MergeWrites(left, right)
    decreases right - left
  {
    if left < right {
      var mid := (left + right) / 2;
      assert (left + d + right + d) / 2 == mid + d;
      MergeWritesShift(left, mid, d);
      MergeWritesShift(mid + 1, right, d);
    }
  }

  function Pow2(k: nat): (p: nat)
    ensures p >= 1
  {
    if k == 0 then 1 else 2 * Pow2(k - 1)
  }

  /** A range of `2h` cells splits into two halves of `h`. */
  lemma MergeWritesDouble(h: int)
    requires h >= 1
    ensures MergeWrites(0, 2 * h - 1) == 2 * h + 2 * MergeWrites(0, h - 1)
  {
    var right := 2 * h - 1;
    assert right / 2 == h - 1;
    MergeWritesShift(0, h - 1, h);
    assert MergeWrites(0 + h, h - 1 + h) == MergeWrites(h, right);
  }

  lemma Distribute(k: int, h: int)
    ensures 2 * h + 2 * ((k - 1) * h) == k * (2 * h)
  {
  }

  /** On `2^k` cells merge sort writes every cell once per level: `k * 2^k`
      notifications, `n` times the number of merge levels. */
  lemma {:induction false} MergeWritesPowerOfTwo(k: nat)
    ensures MergeWrites(0, Pow2(k) - 1) == k * Pow2(k)
  {
    if k > 0 {
      var h := Pow2(k - 1);
      MergeWritesPowerOfTwo(k - 1);
      MergeWritesDouble(h);
      Distribute(k, h);
    }
  }

  /** What `merge` writes from the moment it has taken `i` values of `l` and
      `j` of `r`: the head of `l` when `r` is exhausted or `l[i] < r[j]`, the
      head of `r` otherwise, so equal values come from `r` first. */
  function MergeFrom(l: seq<int>, r: seq<int>, i: nat, j: nat): (m: seq<int>)
    requires i <= |l| && j <= |r|
    ensures |m| == (|l| - i) + (|r| - j)
    decreases (|l| - i) + (|r| - j)
  {
    if i == |l| && j == |r| then []
    else if j >= |r| || (i < |l| && l[i] < r[j]) then [l[i]] + MergeFrom(l, r, i + 1, j)
    else [r[j]] + MergeFrom(l, r, i, j + 1)
  }

  /** The whole output of `merge(l, r, ...)`. */
  function Merged(l: seq<int>, r: seq<int>): (m: seq<int>)
    ensures |m| == |l| + |r|
  {
    MergeFrom(l, r, 0, 0)
  }

  lemma TailValues(s: seq<int>, i: int)
    requires 0 <= i < |s|
    ensures multiset(s[i..]) == multiset{s[i]} + multiset(s[i + 1..])
  {
    assert s[i..] == [s[i]] + s[i + 1..];
  }

  /** The merge writes the values of what remains of `l` and `r`. */
  lemma {:induction false} MergeFromValues(l: seq<int>, r: seq<int>, i: nat, j: nat)
    requires i <= |l| && j <= |r|
    ensures multiset(MergeFrom(l, r, i, j)) == multiset(l[i..]) + multiset(r[j..])
    decreases (|l| - i) + (|r| - j)
  {
    if i == |l| && j == |r| {
    } else if j >= |r| || (i < |l| && l[i] < r[j]) {
      MergeFromValues(l, r, i + 1, j);
      TailValues(l, i);
    } else {
      MergeFromValues(l, r, i, j + 1);
      TailValues(r, j);
    }
  }

  /** A lower bound of what remains of both runs bounds all that the merge
      still writes. */
  lemma {:induction false} MergeFromBound(l: seq<int>, r: seq<int>, i: nat, j: nat, v: int)
    requires i <= |l| && j <= |r|
    requires forall p :: i <= p < |l| ==> v <= l[p]
    requires forall q :: j <= q < |r| ==> v <= r[q]
    ensures forall t :: 0 <= t < |MergeFrom(l, r, i, j)| ==> v <= MergeFrom(l, r, i, j)[t]
    decreases (|l| - i) + (|r| - j)
  {
    if i == |l| && j == |r| {
    } else if j >= |r| || (i < |l| && l[i] < r[j]) {
      MergeFromBound(l, r, i + 1, j, v);
    } else {
      MergeFromBound(l, r, i, j + 1, v);
    }
  }

  /** Merging two sorted runs gives a sorted run. */
  lemma {:induction false} MergeFromSorted(l: seq<int>, r: seq<int>, i: nat, j: nat)
    requires i <= |l| && j <= |r| && Sorted(l) && Sorted(r)
    ensures Sorted(MergeFrom(l, r, i, j))
    decreases (|l| - i) + (|r| - j)
  {
    if i == |l| && j == |r| {
    } else if j >= |r| || (i < |l| && l[i] < r[j]) {
      MergeFromSorted(l, r, i + 1, j);
      MergeFromBound(l, r, i + 1, j, l[i]);
      JoinSorted([], l[i], MergeFrom(l, r, i + 1, j));
    } else {
      MergeFromSorted(l, r, i, j + 1);
      MergeFromBound(l, r, i, j + 1, r[j]);
      JoinSorted([], r[j], MergeFrom(l, r, i, j + 1));
    }
  }

  /** Merging two sorted runs gives a sorted arrangement of their values. */
  lemma MergedSortedPermutation(l: seq<int>, r: seq<int>)
    requires Sorted(l) && Sorted(r)
    ensures Sorted(Merged(l, r))
    ensures multiset(Merged(l, r)) == multiset(l + r)
  {
    MergeFromSorted(l, r, 0, 0);
    MergeFromValues(l, r, 0, 0);
    assert l[0..] == l && r[0..] == r;
  }

  /** The state of `merge` after `i` cells of `l` and `j` of `r` are written:
      `out`, the start of `Merged(l, r)`, is in `res[left..left + i + j]`,
      the rest of `arr` is untouched and what is left to write is
      `MergeFrom(l, r, i, j)`. */
  ghost predicate Writing(arr: seq<int>, l: seq<int>, r: seq<int>, left: int,
                          res: seq<int>, out: seq<int>, i: nat, j: nat) {
    i <= |l| && j <= |r| && 0 <= left && left + |l| + |r| <= |arr| &&
    |out| == i + j && SameOutside(arr, res, left, left + |l| + |r|) &&
    (forall t :: 0 <= t < |out| ==> res[left + t] == out[t]) &&
    out + MergeFrom(l, r, i, j) == Merged(l, r)
  }

  lemma AppendAssoc(a: seq<int>, b: seq<int>, c: seq<int>)
    ensures (a + b) + c == a + (b + c)
  {
  }

  /** The body of the loop of `merge`: the head of `l` when `r` is exhausted
      or `l[i] < r[j]`, the head of `r` otherwise, is written into cell
      `left + i + j`. */
  method Step(ghost arr: seq<int>, l: seq<int>, r: seq<int>, left: int,
              res: seq<int>, ghost out: seq<int>, i: nat, j: nat)
    returns (res': seq<int>, ghost out': seq<int>, i': nat, j': nat)
    requires Writing(arr, l, r, left, res, out, i, j) && i + j < |l| + |r|
    ensures Writing(arr, l, r, left, res', out', i', j') && i' + j' == i + j + 1
  {
    var x;
    if j >= |r| || (i < |l| && l[i] < r[j]) {
      x, i', j' := l[i], i + 1, j;
    } else {
      x, i', j' := r[j], i, j + 1;
    }
    AppendAssoc(out, [x], MergeFrom(l, r, i', j'));
    res' := res[left + i + j := x];
    out' := out + [x];
  }

  /** Once both runs are used up, the range holds `Merged(l, r)`. */
  lemma WritingDone(arr: seq<int>, l: seq<int>, r: seq<int>, left: int, res: seq<int>, out: seq<int>)
    requires Writing(arr, l, r, left, res, out, |l|, |r|)
    ensures SameOutside(arr, res, left, left + |l| + |r|)
    ensures res[left..left + |l| + |r|] == Merged(l, r)
  {
    assert res[left..left + |l| + |r|] == out;
  }

  /** `merge(l, r, left, right)`: writes `Merged(l, r)` over `arr[left..right]`,
      one cell at a time from `left` up, each write notified as `update(k, k)`.
      Nothing outside the range changes. */
  method Merge(arr: seq<int>, l: seq<int>, r: seq<int>, left: int, right: int)
    returns (res: seq<int>, updates: seq<Update>)
    requires 0 <= left <= right <= |arr| && right - left == |l| + |r|
    ensures SameOutside(arr, res, left, right)
    ensures res[left..right] == Merged(l, r)
    ensures updates == Sweep(left, right)
  {
    var i, j := 0, 0;
    res := arr;
    updates := [];
    var k := left;
    // `out` is what has been written so far, `res[left..k]`.
    ghost var out: seq<int> := [];
    while k < right
      invariant k == left + i + j <= right
      invariant Writing(arr, l, r, left, res, out, i, j)
      invariant updates == Sweep(left, k)
    {
      res, out, i, j := Step(arr, l, r, left, res, out, i, j);
      updates := updates + [Update(k, k)];
      k := k + 1;
    }
    WritingDone(arr, l, r, left, res, out);
  }

  /** Every notification is `update(k, k)` for a cell `k` of `[lo, hi)`. */
  predicate Diagonal(updates: seq<Update>, lo: int, hi: int) {
    forall t :: 0 <= t < |updates| ==> lo <= updates[t].i == updates[t].j < hi
  }

  lemma DiagonalJoin(u: seq<Update>, v: seq<Update>, lo: int, hi: int)
    requires Diagonal(u, lo, hi) && Diagonal(v, lo, hi)
    ensures Diagonal(u + v, lo, hi)
  {
  }

  /** Sorting the left half into `a1`, then the right half into `a2`, then
      merging the two halves of `a2` into `res` sorts the range of `arr` and
      leaves the rest alone. */
  lemma Halves(arr: seq<int>, a1: seq<int>, a2: seq<int>, res: seq<int>, left: int, mid: int, right: int)
    requires 0 <= left <= mid < right < |arr|
    requires SameOutside(arr, a1, left, mid + 1) && SameOutside(a1, a2, mid + 1, right + 1)
    requires Sorted(a1[left..mid + 1]) && Sorted(a2[mid + 1..right + 1])
    requires multiset(a1[left..mid + 1]) == multiset(arr[left..mid + 1])
    requires multiset(a2[mid + 1..right + 1]) == multiset(a1[mid + 1..right + 1])
    requires SameOutside(a2, res, left, right + 1)
    requires res[left..right + 1] == Merged(a2[left..mid + 1], a2[mid + 1..right + 1])
    ensures SameOutside(arr, res, left, right + 1)
    ensures Sorted(res[left..right + 1])
    ensures multiset(res[left..right + 1]) == multiset(arr[left..right + 1])
  {
    var l, r := a2[left..mid + 1], a2[mid + 1..right + 1];
    assert l == a1[left..mid + 1];
    assert a1[mid + 1..right + 1] == arr[mid + 1..right + 1];
    assert l + r == a2[left..right + 1];
    assert arr[left..mid + 1] + arr[mid + 1..right + 1] == arr[left..right + 1];
    MergedSortedPermutation(l, r);
  }

  /** A range of at most one cell is sorted. */
  lemma ShortSorted(s: seq<int>)
    requires |s| <= 1
    ensures Sorted(s)
  {
  }

  /** `merge_rec(left, right)`: sorts the inclusive range `[left, right]` and
      nothing else, with `MergeWrites(left, right)` notifications, all inside
      the range and each of the form `update(k, k)`. */
  method MergeRec(arr: seq<int>, left: int, right: int) returns (res: seq<int>, updates: seq<Update>)
    requires 0 <= left <= right + 1 <= |arr|
    ensures SameOutside(arr, res, left, right + 1)
    ensures Sorted(res[left..right + 1])
    ensures multiset(res[left..right + 1]) == multiset(arr[left..right + 1])
    ensures |updates| == MergeWrites(left, right)
    ensures Diagonal(updates, left, right + 1)
    decreases right - left
  {
    if left < right {
      var mid := (left + right) / 2;
      var a1, u1 := MergeRec(arr, left, mid);
      var a2, u2 := MergeRec(a1, mid + 1, right);
      var u3;
      res, u3 := Merge(a2, a2[left..mid + 1], a2[mid + 1..right + 1], left, right + 1);
      Halves(arr, a1, a2, res, left, mid, right);
      updates := u1 + u2 + u3;
      DiagonalJoin(u1, u2, left, right + 1);
      DiagonalJoin(u1 + u2, u3, left, right + 1);
    } else {
      res := arr;
      updates := [];
      ShortSorted(arr[left..right + 1]);
    }
  }

  /** `merge_sort(arr, update)`: `merge_rec(0, len(arr) - 1)` sorts the whole
      array. */
  method Sort(a: seq<int>) returns (r: seq<int>, updates: seq<Update>)
    ensures Sorted(r)
    ensures multiset(r) == multiset(a)
    ensures |updates| == MergeWrites(0, |a| - 1)
    ensures Diagonal(updates, 0, |a|)
  {
    r, updates := MergeRec(a, 0, |a| - 1);
    assert r[0..|a|] == r && a[0..|a|] == a;
  }
}

=== FILE: panel.dfy ===
/** The downsampling `draw_bars_panel` applies before drawing: at most one
    bar per four pixels of panel width, taking every `step`-th value of the
    array from index 0. */
module Panel {

  /** `num_bars = min(len(arr), width // 4)`. */
  function NumBars(len: int, width: int): (n: int)
    ensures n <= len && n <= width / 4
    ensures n == len || n == width / 4
  {
    if len <= width / 4 then len else width / 4
  }

  /** `step = len(arr) // num_bars`; the division fails when there is no bar.
      The step is the largest whole number of strides of `num_bars` cells
      that fits into the array. */
  function Step(len: int, width: int): (step: int)
    requires NumBars(len, width) > 0
    ensures step * NumBars(len, width) <= len < (step + 1) * NumBars(len, width)
  {
    var n := NumBars(len, width);
    assert len == (len / n) * n + len % n;
    len / n
  }

  /** `s[i::step]`: the cells `i, i + step, i + 2 step, ...` below `|s|`. It
      is empty exactly when `i` is past the end, and never longer than the
      cells from `i` on. */
  function StridedFrom(s: seq<int>, step: int, i: int): (r: seq<int>)
    requires step > 0 && i >= 0
    ensures (|r| == 0) == (i >= |s|)
    ensures i < |s| ==> |r| <= |s| - i
    decreases |s| - i
  {
    if i >= |s| then [] else [s[i]] + StridedFrom(s, step, i + step)
  }

  /** `s[i::step]` has `ceil((|s| - i) / step)` cells, as Python's slice of a
      range with a positive step: the last cell taken lies within one stride
      of the end. */
  lemma {:induction false} StridedLength(s: seq<int>, step: int, i: int)
    requires step > 0 && 0 <= i < |s|
    ensures var n := |StridedFrom(s, step, i)|;
      (n - 1) * step <= |s| - i - 1 < n * step
    decreases |s| - i
  {
    var n := |StridedFrom(s, step, i)|;
    if i + step < |s| {
      StridedLength(s, step, i + step);
      assert n * step == (n - 1) * step + step;
      assert (n - 1) * step == (n - 2) * step + step;
    } else {
      assert n == 1;
    }
  }

  /** One step further along the stride. */
  lemma NextStride(i: int, step: int, k: int)
    ensures (i + step) + (k - 1) * step == i + k * step
  {
  }

  /** Value `k` of `s[i::step]` is `s[i + k step]`. */
  lemma {:induction false} StridedAt(s: seq<int>, step: int, i: int, k: int)
    requires step > 0 && i >= 0 && 0 <= k < |StridedFrom(s, step, i)|
    ensures i + k * step < |s| && StridedFrom(s, step, i)[k] == s[i + k * step]
    decreases k
  {
    if k > 0 {
      NextStride(i, step, k);
      StridedAt(s, step, i + step, k - 1);
    }
  }

  /** `s[i::step]` reaches every index `i + k step` below `|s|`. */
  lemma {:induction false} StridedCovers(s: seq<int>, step: int, i: int, k: int)
    requires step > 0 && i >= 0 && k >= 0 && i + k * step < |s|
    ensures k < |StridedFrom(s, step, i)|
    decreases k
  {
    if k > 0 {
      NextStride(i, step, k);
      StridedCovers(s, step, i + step, k - 1);
    }
  }

  /** With at least one bar, there are `num_bars` strided cells: the last bar
      index `(num_bars - 1) * step` is inside the array. */
  lemma LastBarInside(len: int, width: int)
    requires len > 0 && width >= 4
    ensures NumBars(len, width) >= 1 && Step(len, width) >= 1
    ensures (NumBars(len, width) - 1) * Step(len, width) < len
  {
    var n := NumBars(len, width);
    var step := len / n;
    assert len == step * n + len % n;
    assert (n - 1) * step == step * n - step;
  }

  /** `display_arr = arr[::step][:num_bars]`. A non-empty array and a panel
      at least four pixels wide give exactly `num_bars` bars, bar `k` being
      `arr[k * step]` with that index inside the array. */
  function Downsample(arr: seq<int>, width: int): (bars: seq<int>)
    requires |arr| > 0 && width >= 4
    ensures NumBars(|arr|, width) >= 1 && Step(|arr|, width) >= 1
    ensures |bars| == NumBars(|arr|, width) <= |arr|
    ensures forall k :: 0 <= k < |bars| ==>
      k * Step(|arr|, width) < |arr| && bars[k] == arr[k * Step(|arr|, width)]
  {
    var n := NumBars(|arr|, width);
    LastBarInside(|arr|, width);
    var step := Step(|arr|, width);
    var strided := StridedFrom(arr, step, 0);
    StridedCovers(arr, step, 0, n - 1);
    assert forall k :: 0 <= k < n ==> k * step < |arr| && strided[k] == arr[k * step] by {
      forall k | 0 <= k < n
        ensures k * step < |arr| && strided[k] == arr[k * step]
      {
        StridedAt(arr, step, 0, k);
      }
    }
    if |strided| <= n then strided else strided[..n]
  }
}

=== FILE: quick.dfy ===
/** `quick_sort`: recursive quicksort with the Lomuto partition, pivot
    `arr[high]`. Every swap of the partition loop and the final swap that puts
    the pivot in place are notified, even when the two cells coincide. */
module QuickSort {
  import opened Common

  /** Every notification `update(i, j)` has `lo <= i <= j < hi`. */
  predicate Ordered(updates: seq<Update>, lo: int, hi: int) {
    forall t :: 0 <= t < |updates| ==> lo <= updates[t].i <= updates[t].j < hi
  }

  /** The state of the `for` loop of `partition(low, high)` before index `j`:
      the cells `[low, i]` are below the pivot `arr[high]`, the cells
      `(i, j)` are not, and the `t`-th swap has put a small value at
      `low + t`. */
  ghost predicate Partitioning(arr: seq<int>, res: seq<int>, low: int, high: int,
                               i: int, j: int, updates: seq<Update>) {
    0 <= low <= j <= high < |arr| && low - 1 <= i < j &&
    SameOutside(arr, res, low, high) && multiset(res) == multiset(arr) &&
    Below(res, low, i + 1, arr[high]) && AtLeast(res, i + 1, j, arr[high]) &&
    |updates| == i - low + 1 &&
    forall t :: 0 <= t < |updates| ==> updates[t].i == low + t && low + t <= updates[t].j < j
  }

  /** Swapping a cell below the pivot to `i + 1` keeps the state. */
  lemma SwapSmall(arr: seq<int>, res: seq<int>, low: int, high: int, i: int, j: int, updates: seq<Update>)
    requires Partitioning(arr, res, low, high, i, j, updates) && j < high && res[j] < arr[high]
    ensures Partitioning(arr, Swap(res, i + 1, j), low, high, i + 1, j + 1, updates + [Update(i + 1, j)])
  {
    var r := Swap(res, i + 1, j);
    assert Below(r, low, i + 2, arr[high]);
    assert AtLeast(r, i + 2, j + 1, arr[high]);
  }

  /** The body of the `for` loop at `j`: a cell below the pivot is swapped to
      `i + 1` and the swap notified as `update(i + 1, j)`. */
  method Scan(arr: seq<int>, res: seq<int>, low: int, high: int, i: int, j: int, updates: seq<Update>)
    returns (res': seq<int>, i': int, updates': seq<Update>)
    requires Partitioning(arr, res, low, high, i, j, updates) && j < high
    ensures Partitioning(arr, res', low, high, i', j + 1, updates')
    ensures res[j] < arr[high] ==> i' == i + 1 && res' == Swap(res, i + 1, j) && updates' == updates + [Update(i + 1, j)]
    ensures arr[high] <= res[j] ==> i' == i && res' == res && updates' == updates
  {
    if res[j] < arr[high] {
      i' := i + 1;
      res' := Swap(res, i', j);
      updates' := updates + [Update(i', j)];
      SwapSmall(arr, res, low, high, i, j, updates);
    } else {
      i', res', updates' := i, res, updates;
    }
  }

  /** `partition(low, high)`: returns `pi` with the pivot, the original
      `arr[high]`, at `pi`, everything before it in `[low, pi)` strictly
      smaller and everything after it in `(pi, high]` at least as large.
      Only `[low, high]` changes. The `t`-th notification is the swap to
      `low + t`, and the last is `update(pi, high)`. */
  method Partition(arr: seq<int>, low: int, high: int) returns (res: seq<int>, pi: int, updates: seq<Update>)
    requires 0 <= low < high < |arr|
    ensures low <= pi <= high
    ensures SameOutside(arr, res, low, high + 1) && multiset(res) == multiset(arr)
    ensures res[pi] == arr[high]
    ensures forall k :: low <= k < pi ==> res[k] < res[pi]
    ensures forall k :: pi < k <= high ==> res[pi] <= res[k]
    ensures |updates| == pi - low + 1 && updates[pi - low] == Update(pi, high)
    ensures forall t :: 0 <= t < pi - low ==> updates[t].i == low + t && low + t <= updates[t].j < high
  {
    var i := low - 1;
    var j := low;
    res := arr;
    updates := [];
    while j < high
      invariant Partitioning(arr, res, low, high, i, j, updates)
      decreases high - j
    {
      res, i, updates := Scan(arr, res, low, high, i, j, updates);
      j := j + 1;
    }
    pi := i + 1;
    assert Below(res, low, pi, arr[high]) && AtLeast(res, pi, high, arr[high]);
    res := Swap(res, pi, high);
    updates := updates + [Update(pi, high)];
  }

  /** A segment permuted in place keeps its bounds. */
  lemma BoundsPermuted(x: seq<int>, y: seq<int>, lo: int, hi: int, below: int, atLeast: int)
    requires 0 <= lo <= hi <= |x|
    requires SameOutside(x, y, lo, hi) && multiset(x) == multiset(y)
    ensures Below(x, lo, hi, below) ==> Below(y, lo, hi, below)
    ensures AtLeast(x, lo, hi, atLeast) ==> AtLeast(y, lo, hi, atLeast)
  {
    SegmentValues(x, y, lo, hi);
  }

  /** After the partition into `r1` and the sorting of both sides into `r2`
      and then `r3`, the range `[low, high]` is sorted and holds the same
      values. */
  lemma Sides(arr: seq<int>, r1: seq<int>, r2: seq<int>, r3: seq<int>, low: int, pi: int, high: int)
    requires 0 <= low <= pi <= high < |arr|
    requires SameOutside(arr, r1, low, high + 1) && multiset(r1) == multiset(arr)
    requires Below(r1, low, pi, r1[pi]) && AtLeast(r1, pi + 1, high + 1, r1[pi])
    requires SameOutside(r1, r2, low, pi) && multiset(r2) == multiset(r1)
    requires SameOutside(r2, r3, pi + 1, high + 1) && multiset(r3) == multiset(r2)
    requires SortedBetween(r2, low, pi) && SortedBetween(r3, pi + 1, high + 1)
    ensures SameOutside(arr, r3, low, high + 1) && multiset(r3) == multiset(arr)
    ensures SortedBetween(r3, low, high + 1)
  {
    var v := r1[pi];
    BoundsPermuted(r1, r2, low, pi, v, v);
    assert AtLeast(r2, pi + 1, high + 1, v);
    BoundsPermuted(r2, r3, pi + 1, high + 1, v, v);
    assert Below(r3, low, pi, v) && r3[pi] == v;
  }

  /** `quick(low, high)`: sorts the inclusive range `[low, high]` and nothing
      else. Every notification lies in the range, first index no larger than
      the second. */
  method Quick(arr: seq<int>, low: int, high: int) returns (res: seq<int>, updates: seq<Update>)
    requires 0 <= low <= high + 1 <= |arr|
    ensures SameOutside(arr, res, low, high + 1) && multiset(res) == multiset(arr)
    ensures SortedBetween(res, low, high + 1)
    ensures Ordered(updates, low, high + 1)
    decreases high - low
  {
    if low < high {
      var r1, pi, u1 := Partition(arr, low, high);
      var r2, u2 := Quick(r1, low, pi - 1);
      var r3, u3 := Quick(r2, pi + 1, high);
      Sides(arr, r1, r2, r3, low, pi, high);
      res := r3;
      updates := u1 + u2 + u3;
    } else {
      res := arr;
      updates := [];
    }
  }

  /** `quick_sort(arr, update)`: `quick(0, len(arr) - 1)`. */
  method Sort(a: seq<int>) returns (r: seq<int>, updates: seq<Update>)
    ensures Sorted(r)
    ensures multiset(r) == multiset(a)
    ensures Ordered(updates, 0, |a|)
  {
    r, updates := Quick(a, 0, |a| - 1);
  }
}

=== FILE: radix.dfy ===
/** `radix_sort`: least-significant-digit radix sort in base 10 for
    non-negative values. Each pass for `exp = 1, 10, 100, ...` is a counting
    sort on the digit `(x // exp) % 10` that fills an output buffer from the
    back, so it is stable, and then copies the buffer back, notifying
    `update(i, i)` for every cell. Passes continue while `max // exp > 0`. */
module RadixSort {
  import opened Common

  /** `a * b` is non-negative for non-negative factors. */
  lemma MulNonneg(a: int, b: int)
    requires a >= 0 && b >= 0
    ensures a * b >= 0
  {
  }

  /** A positive multiple of `m` is at least `m`. */
  lemma MulAtLeast(k: int, m: int)
    requires k >= 1 && m > 0
    ensures k * m >= m
  {
    MulNonneg(k - 1, m);
    assert k * m == (k - 1) * m + m;
  }

  /** Euclidean division has exactly one quotient and remainder. */
  lemma DivModUnique(x: int, m: int, a: int, b: int)
    requires m > 0 && x == a * m + b && 0 <= b < m
    ensures x / m == a && x % m == b
  {
    var q, r := x / m, x % m;
    assert x == q * m + r;
    var k := q - a;
    assert k * m == q * m - a * m;
    assert k * m == b - r;
    if k > 0 {
      MulAtLeast(k, m);
    } else if k < 0 {
      MulAtLeast(-k, m);
    }
  }

  /** The digit `(x // exp) % 10` a pass sorts on. The divisors `exp` and 10
      are positive, and for a positive divisor Python's floor division and
      modulo agree with Dafny's Euclidean ones on every `x`, negative or not. */
  function Digit(x: int, exp: int): (d: int)
    requires exp > 0
    ensures 0 <= d < 10
  {
    (x / exp) % 10
  }

  /** Splitting `x` at `exp`: the remainder modulo `10 exp` is the digit at
      `exp` followed by the remainder modulo `exp`, and dividing by `10 exp`
      divides by `exp` and then by 10. */
  lemma ModSplit(x: int, exp: int)
    requires x >= 0 && exp > 0
    ensures x % (10 * exp) == Digit(x, exp) * exp + x % exp
    ensures x / (10 * exp) == (x / exp) / 10
  {
    var q, r := x / exp, x % exp;
    var hi, d := q / 10, q % 10;
    assert x == q * exp + r;
    assert q == hi * 10 + d;
    assert q * exp == hi * (10 * exp) + d * exp;
    MulNonneg(d, exp);
    MulNonneg(9 - d, exp);
    assert 9 * exp == d * exp + (9 - d) * exp;
    DivModUnique(x, 10 * exp, hi, d * exp + r);
  }

  /** The values of `a[..k]` whose digit is `d`, in their order in `a`: the
      part of bucket `d` that comes from the first `k` cells. */
  function Bucket(a: seq<int>, exp: int, d: int, k: int): (b: seq<int>)
    requires exp > 0 && 0 <= k <= |a|
    ensures |b| <= k
    decreases k
  {
    if k == 0 then []
    else Bucket(a, exp, d, k - 1) + (if Digit(a[k - 1], exp) == d then [a[k - 1]] else [])
  }

  /** The buckets `d, d + 1, ..., 9` of `a[..k]`, one after the other. */
  function BucketsFrom(a: seq<int>, exp: int, d: int, k: int): seq<int>
    requires exp > 0 && 0 <= d <= 10 && 0 <= k <= |a|
    decreases 10 - d
  {
    if d == 10 then [] else Bucket(a, exp, d, k) + BucketsFrom(a, exp, d + 1, k)
  }

  /** What a stable counting sort on the digit at `exp` produces: the
      buckets `0..9` of `a`, each in the order of `a`. */
  function ByDigit(a: seq<int>, exp: int): seq<int>
    requires exp > 0
  {
    BucketsFrom(a, exp, 0, |a|)
  }

  /** Where bucket `d` starts in `ByDigit(a, exp)`: the sizes of the buckets
      before it, which the prefix sums of `count` compute. */
  function Start(a: seq<int>, exp: int, d: int): nat
    requires exp > 0 && 0 <= d <= 10
  {
    if d == 0 then 0 else Start(a, exp, d - 1) + |Bucket(a, exp, d - 1, |a|)|
  }

  /** Bucket `d` of `a[..k]` is the start of bucket `d` of `a[..n]`. */
  lemma {:induction false} BucketPrefix(a: seq<int>, exp: int, d: int, k: int, n: int)
    requires exp > 0 && 0 <= k <= n <= |a|
    ensures |Bucket(a, exp, d, k)| <= |Bucket(a, exp, d, n)|
    ensures forall t :: 0 <= t < |Bucket(a, exp, d, k)| ==> Bucket(a, exp, d, k)[t] == Bucket(a, exp, d, n)[t]
    decreases n
  {
    if k < n {
      BucketPrefix(a, exp, d, k, n - 1);
    }
  }

  /** Every value in bucket `d` has digit `d`. */
  lemma {:induction false} BucketDigit(a: seq<int>, exp: int, d: int, k: int)
    requires exp > 0 && 0 <= k <= |a|
    ensures forall t :: 0 <= t < |Bucket(a, exp, d, k)| ==> Digit(Bucket(a, exp, d, k)[t], exp) == d
    decreases k
  {
    if k > 0 {
      BucketDigit(a, exp, d, k - 1);
    }
  }

  /** Every value in bucket `d` of `a[..k]` is a cell of `a[..k]`. */
  lemma {:induction false} BucketOrigin(a: seq<int>, exp: int, d: int, k: int)
    requires exp > 0 && 0 <= k <= |a|
    ensures forall t :: 0 <= t < |Bucket(a, exp, d, k)| ==> ValueIn(a, 0, k, Bucket(a, exp, d, k)[t])
    decreases k
  {
    if k > 0 {
      BucketOrigin(a, exp, d, k - 1);
      var b := Bucket(a, exp, d, k);
      forall t | 0 <= t < |b|
        ensures ValueIn(a, 0, k, b[t])
      {
        if t < |Bucket(a, exp, d, k - 1)| {
          assert ValueIn(a, 0, k - 1, b[t]);
        } else {
          assert b[t] == a[k - 1];
        }
      }
    }
  }

  /** Adding cell `k - 1` adds its value to exactly the bucket of its digit. */
  lemma {:induction false} BucketsStep(a: seq<int>, exp: int, d: int, k: int)
    requires exp > 0 && 0 <= d <= 10 && 0 < k <= |a|
    ensures multiset(BucketsFrom(a, exp, d, k)) ==
      multiset(BucketsFrom(a, exp, d, k - 1)) + (if d <= Digit(a[k - 1], exp) then multiset{a[k - 1]} else multiset{})
    decreases 10 - d
  {
    if d != 10 {
      BucketsStep(a, exp, d + 1, k);
    }
  }

  /** The buckets of no cells are empty. */
  lemma {:induction false} BucketsEmpty(a: seq<int>, exp: int, d: int)
    requires exp > 0 && 0 <= d <= 10
    ensures BucketsFrom(a, exp, d, 0) == []
    decreases 10 - d
  {
    if d != 10 {
      BucketsEmpty(a, exp, d + 1);
    }
  }

  /** Adding the same value to two equal multisets keeps them equal. */
  lemma AddOne(x: seq<int>, x0: seq<int>, y: seq<int>, y0: seq<int>, v: int)
    requires multiset(x0) == multiset(y0)
    requires multiset(x) == multiset(x0) + multiset{v} && multiset(y) == multiset(y0) + multiset{v}
    ensures multiset(x) == multiset(y)
  {
  }

  /** The buckets together hold the values of `a`: `ByDigit` permutes `a`. */
  lemma BucketsValues(a: seq<int>, exp: int)
    requires exp > 0
    ensures multiset(ByDigit(a, exp)) == multiset(a)
  {
    BucketsEmpty(a, exp, 0);
    var k := 0;
    while k < |a|
      invariant 0 <= k <= |a|
      invariant multiset(BucketsFrom(a, exp, 0, k)) == multiset(a[..k])
    {
      BucketsValuesStep(a, exp, k + 1);
      k := k + 1;
    }
    assert a[..|a|] == a;
  }

  /** The inductive step of `BucketsValues`. */
  lemma BucketsValuesStep(a: seq<int>, exp: int, k: int)
    requires exp > 0 && 0 < k <= |a|
    requires multiset(BucketsFrom(a, exp, 0, k - 1)) == multiset(a[..k - 1])
    ensures multiset(BucketsFrom(a, exp, 0, k)) == multiset(a[..k])
  {
    BucketsStep(a, exp, 0, k);
    PrefixValues(a, k);
    AddOne(BucketsFrom(a, exp, 0, k), BucketsFrom(a, exp, 0, k - 1), a[..k], a[..k - 1], a[k - 1]);
  }

  /** The buckets from `d` on fill `ByDigit` from `Start(d)` to the end. */
  lemma {:induction false} BucketsLength(a: seq<int>, exp: int, d: int)
    requires exp > 0 && 0 <= d <= 10
    ensures |BucketsFrom(a, exp, d, |a|)| == Start(a, exp, 10) - Start(a, exp, d)
    decreases 10 - d
  {
    if d != 10 {
      BucketsLength(a, exp, d + 1);
    }
  }

  /** The bucket starts grow with `d`. */
  lemma {:induction false} StartMono(a: seq<int>, exp: int, d: int, e: int)
    requires exp > 0 && 0 <= d <= e <= 10
    ensures 0 <= Start(a, exp, d) <= Start(a, exp, e)
    decreases e
  {
    if d < e {
      StartMono(a, exp, d, e - 1);
    }
  }

  /** The ten buckets together are as long as `a`. */
  lemma StartTotal(a: seq<int>, exp: int)
    requires exp > 0
    ensures Start(a, exp, 10) == |a| == |ByDigit(a, exp)|
  {
    BucketsLength(a, exp, 0);
    BucketsValues(a, exp);
    assert |BucketsFrom(a, exp, 0, |a|)| == |multiset(a)|;
  }

  /** Value `t` of bucket `d` is in its slot `Start(d) + t` of `out`. */
  ghost predicate InSlot(out: seq<int>, a: seq<int>, exp: int, d: int, t: int)
    requires exp > 0 && 0 <= d < 10 && 0 <= t < |Bucket(a, exp, d, |a|)|
  {
    Start(a, exp, d) + t < |out| && out[Start(a, exp, d) + t] == Bucket(a, exp, d, |a|)[t]
  }

  /** Once everything is filled, every value is in its slot. */
  lemma FilledSlot(s: seq<int>, a: seq<int>, exp: int, d: int, t: int)
    requires exp > 0 && Filled(s, a, exp, 0)
    requires 0 <= d < 10 && 0 <= t < |Bucket(a, exp, d, |a|)|
    ensures InSlot(s, a, exp, d, t)
  {
    assert |Bucket(a, exp, d, 0)| == 0;
    assert InSlot(s, a, exp, d, t);
  }

  /** Bucket `e` placed in front of the buckets from `d = e + 1` on. */
  lemma AssembleStep(s: seq<int>, a: seq<int>, exp: int, e: int, d: int)
    requires exp > 0 && 0 <= e < 10 && d == e + 1 && |s| == |a|
    requires forall t :: 0 <= t < |Bucket(a, exp, e, |a|)| ==> InSlot(s, a, exp, e, t)
    requires Start(a, exp, d) <= |s| && s[Start(a, exp, d)..] == BucketsFrom(a, exp, d, |a|)
    ensures Start(a, exp, e) <= |s| && s[Start(a, exp, e)..] == BucketsFrom(a, exp, e, |a|)
  {
    var lo, hi := Start(a, exp, e), Start(a, exp, d);
    var b := Bucket(a, exp, e, |a|);
    assert hi == lo + |b|;
    forall t | 0 <= t < |b|
      ensures s[lo..hi][t] == b[t]
    {
      assert InSlot(s, a, exp, e, t);
      assert s[lo..hi][t] == s[lo + t];
    }
    assert s[lo..hi] == b;
    assert s[lo..] == s[lo..hi] + s[hi..];
  }

  /** A buffer holding every bucket at its start is `ByDigit(a, exp)`. */
  lemma Assemble(s: seq<int>, a: seq<int>, exp: int)
    requires exp > 0 && |s| == |a|
    requires Filled(s, a, exp, 0)
    ensures s == ByDigit(a, exp)
  {
    StartTotal(a, exp);
    assert s[|s|..] == [];
    var d := 10;
    while d > 0
      invariant 0 <= d <= 10
      invariant Start(a, exp, d) <= |s| && s[Start(a, exp, d)..] == BucketsFrom(a, exp, d, |a|)
    {
      var e := d - 1;
      forall t | 0 <= t < |Bucket(a, exp, e, |a|)|
        ensures InSlot(s, a, exp, e, t)
      {
        FilledSlot(s, a, exp, e, t);
      }
      AssembleStep(s, a, exp, e, d);
      d := e;
    }
    assert s[0..] == s;
  }

  /** Non-decreasing in the remainder modulo `m`: the order after sorting on
      the digits below `m`. */
  ghost predicate KeySorted(s: seq<int>, m: int) {
    m > 0 && forall p, q :: 0 <= p < q < |s| ==> s[p] % m <= s[q] % m
  }

  /** Every value has digit at least `d` at `exp`. */
  ghost predicate DigitsFrom(s: seq<int>, exp: int, d: int)
    requires exp > 0
  {
    forall t :: 0 <= t < |s| ==> Digit(s[t], exp) >= d
  }

  /** Concatenating two key-sorted runs, every key of the first at most every
      key of the second, gives a key-sorted run. */
  lemma KeyJoin(x: seq<int>, y: seq<int>, m: int)
    requires KeySorted(x, m) && KeySorted(y, m)
    requires forall p, q :: 0 <= p < |x| && 0 <= q < |y| ==> x[p] % m <= y[q] % m
    ensures KeySorted(x + y, m)
  {
    var s := x + y;
    forall p, q | 0 <= p < q < |s|
      ensures s[p] % m <= s[q] % m
    {
      if q < |x| {
      } else if p >= |x| {
        assert s[p] == y[p - |x|] && s[q] == y[q - |x|];
      } else {
        assert s[q] == y[q - |x|];
      }
    }
  }

  /** A bucket keeps the order of `a` and so its key order. */
  lemma {:induction false} BucketKeySorted(a: seq<int>, exp: int, d: int, k: int)
    requires KeySorted(a, exp) && 0 <= k <= |a|
    ensures KeySorted(Bucket(a, exp, d, k), exp)
    decreases k
  {
    if k != 0 {
      BucketKeySorted(a, exp, d, k - 1);
      BucketOrigin(a, exp, d, k - 1);
      var b0 := Bucket(a, exp, d, k - 1);
      var b := Bucket(a, exp, d, k);
      if Digit(a[k - 1], exp) == d {
        forall p, q | 0 <= p < q < |b|
          ensures b[p] % exp <= b[q] % exp
        {
          if q == |b0| {
            assert ValueIn(a, 0, k - 1, b0[p]);
            var j :| 0 <= j < k - 1 && a[j] == b0[p];
          }
        }
      }
    }
  }

  /** Within one digit, the order modulo `exp` is the order modulo `10 exp`. */
  lemma KeySame(x: int, y: int, exp: int)
    requires x >= 0 && y >= 0 && exp > 0
    requires Digit(x, exp) == Digit(y, exp) && x % exp <= y % exp
    ensures x % (10 * exp) <= y % (10 * exp)
  {
    ModSplit(x, exp);
    ModSplit(y, exp);
  }

  /** A smaller digit at `exp` gives a smaller remainder modulo `10 exp`. */
  lemma KeyAcross(x: int, y: int, exp: int)
    requires x >= 0 && y >= 0 && exp > 0
    requires Digit(x, exp) < Digit(y, exp)
    ensures x % (10 * exp) < y % (10 * exp)
  {
    ModSplit(x, exp);
    ModSplit(y, exp);
    MulLess(Digit(x, exp), Digit(y, exp), exp);
  }

  /** Multiplying by a positive `m` keeps a gap of at least `m`. */
  lemma MulLess(a: int, b: int, m: int)
    requires a < b && m > 0
    ensures a * m + m <= b * m
  {
    MulAtLeast(b - a, m);
    assert b * m == a * m + (b - a) * m;
  }

  /** Bucket `d` of `a` is non-negative, has digit `d` throughout and is
      sorted modulo `10 exp`. */
  lemma BucketOrdered(a: seq<int>, exp: int, d: int)
    requires KeySorted(a, exp) && NonNegative(a)
    ensures NonNegative(Bucket(a, exp, d, |a|))
    ensures forall t :: 0 <= t < |Bucket(a, exp, d, |a|)| ==> Digit(Bucket(a, exp, d, |a|)[t], exp) == d
    ensures KeySorted(Bucket(a, exp, d, |a|), 10 * exp)
  {
    var b := Bucket(a, exp, d, |a|);
    BucketKeySorted(a, exp, d, |a|);
    BucketDigit(a, exp, d, |a|);
    BucketOrigin(a, exp, d, |a|);
    forall t | 0 <= t < |b|
      ensures b[t] >= 0
    {
      assert ValueIn(a, 0, |a|, b[t]);
    }
    forall p, q | 0 <= p < q < |b|
      ensures b[p] % (10 * exp) <= b[q] % (10 * exp)
    {
      KeySame(b[p], b[q], exp);
    }
  }

  /** The buckets from `d` on are non-negative, have digits at least `d`
      and are sorted modulo `10 exp`. */
  lemma {:induction false} BucketsOrdered(a: seq<int>, exp: int, d: int)
    requires KeySorted(a, exp) && NonNegative(a) && 0 <= d <= 10
    ensures NonNegative(BucketsFrom(a, exp, d, |a|))
    ensures DigitsFrom(BucketsFrom(a, exp, d, |a|), exp, d)
    ensures KeySorted(BucketsFrom(a, exp, d, |a|), 10 * exp)
    decreases 10 - d
  {
    if d != 10 {
      BucketsOrdered(a, exp, d + 1);
      BucketOrdered(a, exp, d);
      BucketsJoin(a, exp, d);
    }
  }

  /** The inductive step of `BucketsOrdered`. */
  lemma BucketsJoin(a: seq<int>, exp: int, d: int)
    requires exp > 0 && 0 <= d < 10
    requires var b := Bucket(a, exp, d, |a|);
      NonNegative(b) && KeySorted(b, 10 * exp) &&
      forall t :: 0 <= t < |b| ==> Digit(b[t], exp) == d
    requires var r := BucketsFrom(a, exp, d + 1, |a|);
      NonNegative(r) && DigitsFrom(r, exp, d + 1) && KeySorted(r, 10 * exp)
    ensures NonNegative(BucketsFrom(a, exp, d, |a|))
    ensures DigitsFrom(BucketsFrom(a, exp, d, |a|), exp, d)
    ensures KeySorted(BucketsFrom(a, exp, d, |a|), 10 * exp)
  {
    var b, r := Bucket(a, exp, d, |a|), BucketsFrom(a, exp, d + 1, |a|);
    forall p, q | 0 <= p < |b| && 0 <= q < |r|
      ensures b[p] % (10 * exp) <= r[q] % (10 * exp)
    {
      KeyAcross(b[p], r[q], exp);
    }
    KeyJoin(b, r, 10 * exp);
    var s := b + r;
    assert forall t :: 0 <= t < |s| ==> s[t] == if t < |b| then b[t] else r[t - |b|];
  }

  /** A counting pass on the digit at `exp` extends the sorted key from
      `exp` to `10 exp`: the stability argument of LSD radix sort. */
  lemma ByDigitOrdered(a: seq<int>, exp: int)
    requires KeySorted(a, exp) && NonNegative(a)
    ensures KeySorted(ByDigit(a, exp), 10 * exp)
    ensures NonNegative(ByDigit(a, exp))
  {
    BucketsOrdered(a, exp, 0);
  }

  /** `count[d]` is the size of bucket `d` of `a[..k]`, for every digit. */
  ghost predicate Counted(count: seq<int>, a: seq<int>, exp: int, k: int)
    requires exp > 0 && 0 <= k <= |a|
  {
    |count| == 10 && forall d :: 0 <= d < 10 ==> count[d] == |Bucket(a, exp, d, k)|
  }

  /** The first loop of `counting_sort(exp)`: `count[idx] += 1` for the digit
      `idx` of every cell. */
  method CountDigits(a: seq<int>, exp: int) returns (count: seq<int>)
    requires exp > 0
    ensures Counted(count, a, exp, |a|)
  {
    count := [0, 0, 0, 0, 0, 0, 0, 0, 0, 0];
    var i := 0;
    while i < |a|
      invariant 0 <= i <= |a| && Counted(count, a, exp, i)
    {
      var idx := Digit(a[i], exp);
      count := count[idx := count[idx] + 1];
      i := i + 1;
    }
  }

  /** The second loop: `count[i] += count[i - 1]` for `i` in `1..9` turns
      the bucket sizes into the ends of the buckets, `Start(d + 1)`. */
  method Accumulate(a: seq<int>, exp: int, count: seq<int>) returns (ends: seq<int>)
    requires exp > 0 && Counted(count, a, exp, |a|)
    ensures |ends| == 10 && forall d :: 0 <= d < 10 ==> ends[d] == Start(a, exp, d + 1)
  {
    ends := count;
    var i := 1;
    while i < 10
      invariant 1 <= i <= 10 && |ends| == 10
      invariant forall d :: 0 <= d < i ==> ends[d] == Start(a, exp, d + 1)
      invariant forall d :: i <= d < 10 ==> ends[d] == count[d]
    {
      ends := ends[i := ends[i] + ends[i - 1]];
      i := i + 1;
    }
  }

  /** The values of every bucket that come from `a[k..]` are in their slots. */
  ghost predicate Filled(out: seq<int>, a: seq<int>, exp: int, k: int)
    requires exp > 0 && 0 <= k <= |a|
  {
    forall d, t :: 0 <= d < 10 && |Bucket(a, exp, d, k)| <= t < |Bucket(a, exp, d, |a|)| ==>
      InSlot(out, a, exp, d, t)
  }

  /** During the backward loop, `count[d]` is the slot after the last free
      one of bucket `d`. */
  ghost predicate Cursors(count: seq<int>, a: seq<int>, exp: int, k: int)
    requires exp > 0 && 0 <= k <= |a|
  {
    |count| == 10 && forall d :: 0 <= d < 10 ==> count[d] == Start(a, exp, d) + |Bucket(a, exp, d, k)|
  }

  /** Cell `i` is the next value of its bucket, counted from the end: it
      goes to the slot just below the cursor. */
  lemma NextSlot(a: seq<int>, exp: int, i: int)
    requires exp > 0 && 0 <= i < |a|
    ensures var d := Digit(a[i], exp); var t := |Bucket(a, exp, d, i)|;
      |Bucket(a, exp, d, i + 1)| == t + 1 && t < |Bucket(a, exp, d, |a|)| &&
      Bucket(a, exp, d, |a|)[t] == a[i] &&
      Start(a, exp, d) + t < |a|
  {
    var d := Digit(a[i], exp);
    BucketPrefix(a, exp, d, i + 1, |a|);
    StartMono(a, exp, d + 1, 10);
    StartTotal(a, exp);
  }

  /** Two different buckets occupy disjoint slots. */
  lemma SlotsDisjoint(a: seq<int>, exp: int, d: int, t: int, e: int, u: int)
    requires exp > 0 && 0 <= d < 10 && 0 <= e < 10 && d != e
    requires 0 <= t < |Bucket(a, exp, d, |a|)| && 0 <= u < |Bucket(a, exp, e, |a|)|
    ensures Start(a, exp, d) + t != Start(a, exp, e) + u
  {
    if d < e {
      StartMono(a, exp, d + 1, e);
    } else {
      StartMono(a, exp, e + 1, d);
    }
  }

  /** Writing cell `i` below its cursor extends the filled region to `a[i..]`. */
  lemma FilledStep(out: seq<int>, out': seq<int>, a: seq<int>, exp: int, i: int, pos: int)
    requires exp > 0 && 0 <= i < |a| && |out| == |a| && Filled(out, a, exp, i + 1)
    requires pos == Start(a, exp, Digit(a[i], exp)) + |Bucket(a, exp, Digit(a[i], exp), i)|
    requires 0 <= pos < |out| && out' == out[pos := a[i]]
    ensures Filled(out', a, exp, i)
  {
    NextSlot(a, exp, i);
    forall d, t | 0 <= d < 10 && |Bucket(a, exp, d, i)| <= t < |Bucket(a, exp, d, |a|)|
      ensures InSlot(out', a, exp, d, t)
    {
      if |Bucket(a, exp, d, i + 1)| <= t {
        assert InSlot(out, a, exp, d, t);
      }
      FilledCell(out, a, exp, i, d, t);
    }
  }

  /** One cell of `FilledStep`: the slot of `(d, t)` is either the one
      written or was filled before. */
  lemma FilledCell(out: seq<int>, a: seq<int>, exp: int, i: int, d: int, t: int)
    requires exp > 0 && 0 <= i < |a| && |out| == |a|
    requires 0 <= d < 10 && |Bucket(a, exp, d, i)| <= t < |Bucket(a, exp, d, |a|)|
    requires |Bucket(a, exp, d, i + 1)| <= t ==> InSlot(out, a, exp, d, t)
    ensures var e := Digit(a[i], exp); var pos := Start(a, exp, e) + |Bucket(a, exp, e, i)|;
      pos < |out| && InSlot(out[pos := a[i]], a, exp, d, t)
  {
    NextSlot(a, exp, i);
    var e := Digit(a[i], exp);
    var u := |Bucket(a, exp, e, i)|;
    if d != e {
      SlotsDisjoint(a, exp, d, t, e, u);
      assert |Bucket(a, exp, d, i + 1)| <= t;
    } else if t != u {
      assert |Bucket(a, exp, d, i + 1)| <= t;
    }
  }

  /** Taking one from the cursor of cell `i`'s bucket moves the cursors from
      `a[i + 1..]` to `a[i..]`. */
  lemma CursorsStep(count: seq<int>, a: seq<int>, exp: int, i: int)
    requires exp > 0 && 0 <= i < |a| && Cursors(count, a, exp, i + 1)
    ensures var d := Digit(a[i], exp);
      count[d] - 1 == Start(a, exp, d) + |Bucket(a, exp, d, i)| && count[d] - 1 < |a| &&
      Cursors(count[d := count[d] - 1], a, exp, i)
  {
    NextSlot(a, exp, i);
  }

  /** One step of the third loop, for cell `i`: `output[count[idx] - 1] = arr[i]`
      and `count[idx] -= 1`. */
  method PlaceOne(a: seq<int>, exp: int, count: seq<int>, out: seq<int>, i: int) returns (count': seq<int>, out': seq<int>)
    requires exp > 0 && 0 <= i < |a| && |out| == |a|
    requires Cursors(count, a, exp, i + 1) && Filled(out, a, exp, i + 1)
    ensures |out'| == |a|
    ensures Cursors(count', a, exp, i)
    ensures Filled(out', a, exp, i)
  {
    var idx := Digit(a[i], exp);
    CursorsStep(count, a, exp, i);
    out' := out[count[idx] - 1 := a[i]];
    count' := count[idx := count[idx] - 1];
    FilledStep(out, out', a, exp, i, count[idx] - 1);
  }

  /** The third loop, `i` from `n - 1` down to `0`: every value goes to the
      last free slot of its bucket, so each bucket keeps the order of `a`. */
  method Place(a: seq<int>, exp: int, ends: seq<int>) returns (out: seq<int>)
    requires exp > 0
    requires |ends| == 10 && forall d :: 0 <= d < 10 ==> ends[d] == Start(a, exp, d + 1)
    ensures out == ByDigit(a, exp)
  {
    out := seq(|a|, _ => 0);
    var count := ends;
    var i := |a| - 1;
    while i >= 0
      invariant -1 <= i < |a| && |out| == |a|
      invariant Cursors(count, a, exp, i + 1) && Filled(out, a, exp, i + 1)
    {
      count, out := PlaceOne(a, exp, count, out, i);
      i := i - 1;
    }
    Assemble(out, a, exp);
  }

  /** `counting_sort(exp)`: count the digits, turn the counts into bucket
      ends, place the values from the back, and copy the buffer back with
      `update(i, i)` for every cell. The pass is the stable distribution
      `ByDigit`, so it permutes `a` and extends the key order from `exp` to
      `10 exp`. */
  method Pass(a: seq<int>, exp: int) returns (r: seq<int>, updates: seq<Update>)
    requires exp > 0
    ensures r == ByDigit(a, exp)
    ensures |r| == |a| && multiset(r) == multiset(a)
    ensures updates == Sweep(0, |a|)
    ensures KeySorted(a, exp) && NonNegative(a) ==> KeySorted(r, 10 * exp) && NonNegative(r)
  {
    var count := CountDigits(a, exp);
    var ends := Accumulate(a, exp, count);
    var out := Place(a, exp, ends);
    StartTotal(a, exp);
    r := a;
    updates := [];
    var i := 0;
    while i < |a|
      invariant 0 <= i <= |a| && |r| == |a|
      invariant forall j :: 0 <= j < i ==> r[j] == out[j]
      invariant updates == Sweep(0, i)
    {
      r := r[i := out[i]];
      updates := updates + [Update(i, i)];
      i := i + 1;
    }
    BucketsValues(a, exp);
    if KeySorted(a, exp) && NonNegative(a) {
      ByDigitOrdered(a, exp);
    }
  }

  /** The number of decimal digits of `m`: the passes `radix_sort` makes
      when the largest value is `m` (none when `m` is not positive). */
  function Digits(m: int): nat
    decreases m
  {
    if m <= 0 then 0 else 1 + Digits(m / 10)
  }

  /** `10^k`. */
  function Pow10(k: nat): (p: int)
    ensures p > 0
  {
    if k == 0 then 1 else 10 * Pow10(k - 1)
  }

  /** `m` has `Digits(m)` digits: `10^(d - 1) <= m < 10^d`. */
  lemma {:induction false} DigitsBounds(m: int)
    requires m > 0
    ensures Digits(m) >= 1 && Pow10(Digits(m) - 1) <= m < Pow10(Digits(m))
    decreases m
  {
    if m >= 10 {
      DigitsBounds(m / 10);
    }
  }

  /** A positive quotient means `x` is at least `exp`; the next quotient is
      the current one divided by 10. */
  lemma NextQuotient(x: int, exp: int)
    requires exp > 0 && x / exp > 0
    ensures x >= exp && x / (10 * exp) == (x / exp) / 10
  {
    MulAtLeast(x / exp, exp);
    ModSplit(x, exp);
  }

  /** A non-negative `x` with quotient zero is below `exp`. */
  lemma QuotientZero(x: int, exp: int)
    requires exp > 0 && x >= 0 && x / exp <= 0
    ensures x < exp
  {
    assert x == (x / exp) * exp + x % exp;
  }

  /** Once the quotient is zero every value up to the maximum is below `exp`,
      so the order modulo `exp` is the order of the values. */
  lemma KeySortedIsSorted(r: seq<int>, exp: int, max: int)
    requires KeySorted(r, exp) && NonNegative(r) && max / exp <= 0
    requires forall k :: 0 <= k < |r| ==> r[k] <= max
    ensures Sorted(r)
  {
    forall k | 0 <= k < |r|
      ensures r[k] % exp == r[k]
    {
      assert r[k] >= 0;
      QuotientZero(max, exp);
      DivModUnique(r[k], exp, 0, r[k]);
    }
  }

  /** The state of `radix_sort` after `passes` passes: `exp = 10^passes`,
      the passes left are the digits of `max // exp`, the array is a
      permutation of `a`, and on non-negative input it is ordered by the
      digits below `exp`. */
  ghost predicate Progress(a: seq<int>, r: seq<int>, updates: seq<Update>, max: int, exp: int, passes: nat) {
    exp == Pow10(passes) && passes + Digits(max / exp) == Digits(max) &&
    |r| == |a| && multiset(r) == multiset(a) &&
    updates == Repeat(Sweep(0, |a|), passes) &&
    (NonNegative(a) ==> KeySorted(r, exp) && NonNegative(r))
  }

  /** One iteration of the `while` loop: `counting_sort(exp)`, then `exp *= 10`. */
  method Round(a: seq<int>, r: seq<int>, updates: seq<Update>, max: int, exp: int, ghost passes: nat)
    returns (r': seq<int>, updates': seq<Update>, exp': int, ghost passes': nat)
    requires Progress(a, r, updates, max, exp, passes) && max / exp > 0
    ensures Progress(a, r', updates', max, exp', passes') && 0 <= max / exp' < max / exp
    ensures r' == ByDigit(r, exp) && updates' == updates + Sweep(0, |a|)
    ensures exp' == 10 * exp && passes' == passes + 1
  {
    NextQuotient(max, exp);
    var u;
    r', u := Pass(r, exp);
    updates' := updates + u;
    exp' := exp * 10;
    passes' := passes + 1;
  }

  /** When the loop stops, every digit of the maximum has had its pass and
      non-negative input is sorted. */
  lemma Finished(a: seq<int>, r: seq<int>, updates: seq<Update>, max: int, exp: int, passes: nat)
    requires Progress(a, r, updates, max, exp, passes) && max / exp <= 0
    requires |a| > 0 && max == Max(a)
    ensures updates == Repeat(Sweep(0, |a|), Digits(Max(a)))
    ensures NonNegative(a) ==> Sorted(r)
  {
    if NonNegative(a) {
      forall k | 0 <= k < |r|
        ensures r[k] <= max
      {
        assert r[k] in multiset(a);
      }
      KeySortedIsSorted(r, exp, max);
    }
  }

  /** Sorts `a` by one `Pass` per digit of the largest value, for
      `exp = 1, 10, 100, ...` while `max // exp > 0`. `max(arr)` makes the
      empty list an error, so `a` must not be empty. Every pass notifies
      every index once, in order. Non-negative input ends sorted. */
  method Sort(a: seq<int>) returns (r: seq<int>, updates: seq<Update>)
    requires |a| > 0
    ensures multiset(r) == multiset(a)
    ensures updates == Repeat(Sweep(0, |a|), Digits(Max(a)))
    ensures NonNegative(a) ==> Sorted(r)
  {
    var max := Max(a);
    var exp := 1;
    ghost var passes := 0;
    r := a;
    updates := [];
    while max / exp > 0
      invariant Progress(a, r, updates, max, exp, passes)
      decreases max / exp
    {
      r, updates, exp, passes := Round(a, r, updates, max, exp, passes);
    }
    Finished(a, r, updates, max, exp, passes);
  }
}

=== FILE: selection.dfy ===
/** `selection_sort`: for each `i`, find the first minimum of `arr[i..]`, swap it
    into place and notify `update(i, min_idx)` even when nothing moved. */
module SelectionSort {
  import opened Common

  /** `m` is the first index of a minimum of `s[i..]`: no later cell is
      smaller and every earlier cell of the range is strictly larger. */
  predicate FirstMin(s: seq<int>, i: int, m: int) {
    0 <= i <= m < |s| &&
    (forall p :: i <= p < |s| ==> s[m] <= s[p]) &&
    (forall p :: i <= p < m ==> s[p] > s[m])
  }

  /** The inner loop: the index of the first minimum of `s[i..]`. */
  method MinIndex(s: seq<int>, i: int) returns (m: int)
    requires 0 <= i < |s|
    ensures i <= m < |s|
    ensures forall p :: i <= p < |s| ==> s[m] <= s[p]
    ensures forall p :: i <= p < m ==> s[p] > s[m]
  {
    m := i;
    var j := i + 1;
    while j < |s|
      invariant i <= m < j <= |s|
      invariant forall p :: i <= p < j ==> s[m] <= s[p]
      invariant forall p :: i <= p < m ==> s[p] > s[m]
    {
      if s[j] < s[m] {
        m := j;
      }
      j := j + 1;
    }
  }

  /** The prefix `s[..i]` is sorted and no larger than anything after it. */
  predicate Placed(s: seq<int>, i: int) {
    0 <= i <= |s| &&
    (forall p, q :: 0 <= p < q < i ==> s[p] <= s[q]) &&
    (forall p, q :: 0 <= p < i <= q < |s| ==> s[p] <= s[q])
  }

  /** The state after `i` steps of the outer loop: the prefix is placed,
      the values are kept, and `states` and `updates` record each step. */
  ghost predicate Selected(a: seq<int>, r: seq<int>, updates: seq<Update>, states: seq<seq<int>>, i: int) {
    0 <= i <= |a| == |r| && Placed(r, i) && multiset(r) == multiset(a) &&
    |updates| == i && |states| == i + 1 && states[0] == a && states[i] == r &&
    (forall k :: 0 <= k < i ==>
      updates[k].i == k <= updates[k].j < |a| && FirstMin(states[k], k, updates[k].j) &&
      states[k + 1] == Swap(states[k], k, updates[k].j)) &&
    (Sorted(a) ==> r == a && forall k :: 0 <= k < i ==> updates[k] == Update(k, k))
  }

  /** One step of the outer loop: swap the first minimum of `r[i..]` into
      cell `i` and notify `update(i, min_idx)`. */
  method Select(ghost a: seq<int>, r: seq<int>, updates: seq<Update>, ghost states: seq<seq<int>>, i: int)
    returns (r': seq<int>, updates': seq<Update>, ghost states': seq<seq<int>>)
    requires Selected(a, r, updates, states, i) && i < |a|
    ensures |updates'| == i + 1 && updates' == updates + [Update(i, updates'[i].j)]
    ensures FirstMin(r, i, updates'[i].j) && r' == Swap(r, i, updates'[i].j)
    ensures Selected(a, r', updates', states', i + 1)
  {
    var m := MinIndex(r, i);
    r' := Swap(r, i, m);
    updates' := updates + [Update(i, m)];
    states' := states + [r'];
    assert FirstMin(r, i, m);
  }

  /** Sorts `a` with exactly one notification per index: the `k`-th is
      `update(k, m)` where `m` is the first minimum of the array as the
      `k`-th step finds it, and that step swaps cells `k` and `m`. The ghost
      `states` records the array before each step. On sorted input nothing
      moves and every notification is `update(k, k)`. */
  method Sort(a: seq<int>) returns (r: seq<int>, updates: seq<Update>, ghost states: seq<seq<int>>)
    ensures |states| == |a| + 1 && states[0] == a && states[|a|] == r
    ensures |updates| == |a|
    ensures forall k :: 0 <= k < |a| ==>
      updates[k].i == k && FirstMin(states[k], k, updates[k].j) &&
      states[k + 1] == Swap(states[k], k, updates[k].j)
    ensures Sorted(r)
    ensures multiset(r) == multiset(a)
    ensures forall k :: 0 <= k < |updates| ==> updates[k].i == k <= updates[k].j < |a|
    ensures Sorted(a) ==> r == a && forall k :: 0 <= k < |updates| ==> updates[k] == Update(k, k)
  {
    r := a;
    updates := [];
    states := [a];
    var i := 0;
    while i < |a|
      invariant Selected(a, r, updates, states, i)
    {
      r, updates, states := Select(a, r, updates, states, i);
      i := i + 1;
    }
  }
}

=== FILE: shell.dfy ===
/** `shell_sort`: gapped insertion sort with the gap halved after each pass
    (`n / 2, n / 4, ..., 1`). Every gapped shift and every placement is notified. */
module ShellSort {
  import opened Common

  /** Cell `k` is at least the cell `gap` places before it. */
  predicate GapOrdered(s: seq<int>, k: int, gap: int) {
    0 <= gap <= k < |s| && s[k - gap] <= s[k]
  }

  /** Every cell is at least the cell `gap` places before it. */
  ghost predicate GapSorted(s: seq<int>, gap: int) {
    forall k :: gap <= k < |s| ==> GapOrdered(s, k, gap)
  }

  /** The placements `update(j, i)` made by the passes with gaps
      `gap, gap / 2, ..., 1` on `n` cells: one per `i` in `gap..n`. */
  function Placements(n: int, gap: int): nat
    requires 0 <= gap <= n
  {
    if gap == 0 then 0 else (n - gap) + Placements(n, gap / 2)
  }

  /** Sorted in steps of one is sorted. */
  lemma {:induction false} OneSortedIsSorted(s: seq<int>)
    requires GapSorted(s, 1)
    ensures Sorted(s)
    decreases |s|
  {
    if |s| > 1 {
      var t := s[..|s| - 1];
      assert GapOrdered(s, |s| - 1, 1);
      forall k | 1 <= k < |t|
        ensures GapOrdered(t, k, 1)
      {
        assert GapOrdered(s, k, 1);
      }
      OneSortedIsSorted(t);
      assert forall p :: 0 <= p < |s| - 1 ==> s[p] == t[p] <= t[|t| - 1] <= s[|s| - 1];
    }
  }

  /** The state inside the `while` loop for one `i`: `r` is `s` with a hole at
      `j` (where `temp = s[i]` will go), the gap chain above the hole holding
      values larger than `temp`, and the `gap`-ordering of `r[..i + 1]` intact
      around the hole. */
  ghost predicate Hole(r: seq<int>, s: seq<int>, gap: int, i: int, j: int) {
    0 < gap <= i < |s| == |r| && 0 <= j <= i && (j == i || j + gap <= i) &&
    (forall k :: gap <= k <= i && k != j && k - gap != j ==> GapOrdered(r, k, gap)) &&
    (j >= gap && j + gap <= i ==> r[j - gap] <= r[j + gap]) &&
    (j + gap <= i ==> s[i] < r[j + gap])
  }

  /** Writing `r[j'] ` into the hole at `j` and moving the hole to `j'` keeps
      the values, counting the pending `temp` as written into the hole. */
  lemma MoveHoleKeepsValues(r: seq<int>, r': seq<int>, j: int, j': int, temp: int)
    requires 0 <= j' < |r| && 0 <= j < |r| && r' == r[j := r[j']]
    ensures multiset(r'[j' := temp]) == multiset(r[j := temp])
  {
    assert r'[j' := temp] == Swap(r[j := temp], j', j);
  }

  /** One shift `arr[j] = arr[j - gap]` moves the hole down one step of the chain. */
  lemma ShiftKeepsHole(r: seq<int>, s: seq<int>, gap: int, i: int, j: int)
    requires Hole(r, s, gap, i, j) && j >= gap && r[j - gap] > s[i]
    ensures Hole(r[j := r[j - gap]], s, gap, i, j - gap)
  {
    var r' := r[j := r[j - gap]];
    var j' := j - gap;
    forall k | gap <= k <= i && k != j' && k - gap != j'
      ensures GapOrdered(r', k, gap)
    {
      if k - gap != j {
        assert GapOrdered(r, k, gap);
      }
    }
    if j' >= gap {
      assert GapOrdered(r, j', gap);
    }
    assert j' + gap <= i ==> s[i] < r'[j' + gap];
  }

  /** Filling the hole once the chain below it is no larger than `temp`
      restores the `gap`-ordering of `r[..i + 1]`. */
  lemma PlaceKeepsOrder(r: seq<int>, s: seq<int>, gap: int, i: int, j: int, filled: seq<int>)
    requires Hole(r, s, gap, i, j) && (j < gap || r[j - gap] <= s[i])
    requires filled == r[j := s[i]]
    ensures forall k :: gap <= k <= i ==> GapOrdered(filled, k, gap)
  {
    forall k | gap <= k <= i
      ensures GapOrdered(filled, k, gap)
    {
      if k != j && k - gap != j {
        assert GapOrdered(r, k, gap);
      }
    }
  }

  /** Some notification of `updates` wrote cell `k`. */
  ghost predicate Written(updates: seq<Update>, k: int) {
    exists t :: 0 <= t < |updates| && updates[t].i == k
  }

  /** The notifications of the shifts down the gap chain from `i` to the hole
      at `j`, in the order they are made: `update(i, i - gap)` first and
      `update(j + gap, j)` last. */
  function Chain(i: int, j: int, gap: int): seq<Update>
    requires gap > 0
    decreases i - j
  {
    if j >= i then [] else Chain(i, j + gap, gap) + [Update(j + gap, j)]
  }

  /** After `n` shifts the `t`-th notification is
      `update(i - t * gap, i - (t + 1) * gap)`. */
  lemma {:induction false} ChainAt(i: int, gap: int, n: int, j: int)
    requires gap > 0 && n >= 0 && j == i - n * gap
    ensures |Chain(i, j, gap)| == n
    ensures forall t :: 0 <= t < n ==> Chain(i, j, gap)[t] == Update(i - t * gap, i - (t + 1) * gap)
    decreases n
  {
    if n == 0 {
      assert j == i;
    } else {
      assert j + gap == i - (n - 1) * gap;
      ChainAt(i, gap, n - 1, j + gap);
      assert j + gap == i - (n - 1) * gap && j == i - n * gap;
    }
  }

  /** The record of the shifts made so far down the gap chain from `i`, with
      the hole now at `j`: each shift copied the cell `gap` below into a cell
      above `j`, and every cell no shift wrote keeps its original value. */
  ghost predicate Shifts(r: seq<int>, s: seq<int>, gap: int, i: int, j: int, updates: seq<Update>) {
    0 < gap && 0 <= j <= i < |s| == |r| &&
    updates == Chain(i, j, gap) && j == i - |updates| * gap &&
    (forall t :: 0 <= t < |updates| ==> j + gap <= updates[t].i <= i && updates[t].j == updates[t].i - gap) &&
    (forall t :: 0 <= t < |updates| ==> r[updates[t].i] == s[updates[t].j]) &&
    (forall k :: 0 <= k < |s| && !Written(updates, k) ==> r[k] == s[k])
  }

  /** The notifications of the chain grow by `update(j, j - gap)` as the hole
      moves from `j` down to `j - gap`. */
  lemma ChainStep(i: int, j: int, gap: int, updates: seq<Update>, v: seq<Update>)
    requires 0 < gap <= j <= i
    requires updates == Chain(i, j, gap) && j == i - |updates| * gap
    requires forall t :: 0 <= t < |updates| ==> j + gap <= updates[t].i <= i && updates[t].j == updates[t].i - gap
    requires v == updates + [Update(j, j - gap)]
    ensures v == Chain(i, j - gap, gap) && j - gap == i - |v| * gap
    ensures forall t :: 0 <= t < |v| ==> j <= v[t].i <= i && v[t].j == v[t].i - gap
  {
    var n := |updates|;
    assert (n + 1) * gap == n * gap + gap;
  }

  /** The copy `arr[j] = arr[j - gap]` keeps the record of writes: cell
      `j - gap` has not been written yet, so it still holds its original
      value, and no other cell changes. */
  lemma WriteStep(r: seq<int>, s: seq<int>, gap: int, j: int, updates: seq<Update>, r': seq<int>, v: seq<Update>)
    requires 0 < gap <= j < |s| == |r|
    requires forall t :: 0 <= t < |updates| ==> j + gap <= updates[t].i < |s| && updates[t].j == updates[t].i - gap
    requires forall t :: 0 <= t < |updates| ==> r[updates[t].i] == s[updates[t].j]
    requires forall k :: 0 <= k < |s| && !Written(updates, k) ==> r[k] == s[k]
    requires r' == r[j := r[j - gap]] && v == updates + [Update(j, j - gap)]
    ensures forall t :: 0 <= t < |v| ==> r'[v[t].i] == s[v[t].j]
    ensures forall k :: 0 <= k < |s| && !Written(v, k) ==> r'[k] == s[k]
  {
    var n := |updates|;
    assert v[n] == Update(j, j - gap);
    assert !Written(updates, j - gap);
    forall k | Written(updates, k)
      ensures Written(v, k)
    {
      var t :| 0 <= t < |updates| && updates[t].i == k;
      assert v[t].i == k;
    }
    forall k | 0 <= k < |s| && !Written(v, k)
      ensures r'[k] == s[k]
    {
      assert k != j by {
        assert v[n].i == j;
      }
    }
  }

  /** One shift `arr[j] = arr[j - gap]`, notified as `update(j, j - gap)`,
      extends the record with the hole moved to `j - gap`. */
  lemma ShiftWrites(r: seq<int>, s: seq<int>, gap: int, i: int, j: int, updates: seq<Update>, r': seq<int>, u: Update)
    requires gap <= j && Shifts(r, s, gap, i, j, updates)
    requires r' == r[j := r[j - gap]] && u == Update(j, j - gap)
    ensures Shifts(r', s, gap, i, j - gap, updates + [u])
  {
    ChainStep(i, j, gap, updates, updates + [u]);
    WriteStep(r, s, gap, j, updates, r', updates + [u]);
  }

  /** The body of the `while` loop: `arr[j] = arr[j - gap]`, notified as
      `update(j, j - gap)`, and the hole moves down to `j - gap`. */
  method Shift(r: seq<int>, s: seq<int>, gap: int, i: int, j: int, updates: seq<Update>)
    returns (r': seq<int>, j': int, updates': seq<Update>)
    requires Hole(r, s, gap, i, j) && j >= gap && r[j - gap] > s[i]
    requires multiset(r[j := s[i]]) == multiset(s)
    requires InBounds(updates, |s|) && Shifts(r, s, gap, i, j, updates)
    ensures Hole(r', s, gap, i, j') && j' == j - gap
    ensures r' == r[j := r[j - gap]] && updates' == updates + [Update(j, j - gap)]
    ensures multiset(r'[j' := s[i]]) == multiset(s)
    ensures InBounds(updates', |s|) && Shifts(r', s, gap, i, j', updates')
  {
    r' := r[j := r[j - gap]];
    j' := j - gap;
    ShiftKeepsHole(r, s, gap, i, j);
    MoveHoleKeepsValues(r, r', j, j', s[i]);
    updates' := updates + [Update(j, j - gap)];
    ShiftWrites(r, s, gap, i, j, updates, r', Update(j, j - gap));
  }

  /** The `while` loop for one `i`: `temp = arr[i]` is compared down its gap
      chain and every larger cell moves up one step, notified as
      `update(j, j - gap)`; the loop stops at the hole where `temp` belongs.
      The `t`-th notification copies cell `i - (t + 1) * gap` into cell
      `i - t * gap`, and every cell no notification wrote keeps its value. */
  method ShiftDown(s: seq<int>, gap: int, i: int) returns (r: seq<int>, j: int, updates: seq<Update>)
    requires 0 < gap <= i < |s|
    requires forall k :: gap <= k < i ==> GapOrdered(s, k, gap)
    ensures Hole(r, s, gap, i, j) && (j < gap || r[j - gap] <= s[i])
    ensures multiset(r[j := s[i]]) == multiset(s)
    ensures InBounds(updates, |s|) && SameOutside(s, r, 0, i + 1)
    ensures Shifts(r, s, gap, i, j, updates)
    ensures s[i - gap] <= s[i] ==> r == s && updates == [] && j == i
  {
    var temp := s[i];
    r := s;
    updates := [];
    j := i;
    assert s[i := temp] == s;
    while j >= gap && r[j - gap] > temp
      invariant Hole(r, s, gap, i, j)
      invariant multiset(r[j := temp]) == multiset(s)
      invariant InBounds(updates, |s|)
      invariant Shifts(r, s, gap, i, j, updates)
      invariant s[i - gap] <= s[i] ==> r == s && updates == [] && j == i
    {
      r, j, updates := Shift(r, s, gap, i, j, updates);
    }
    forall k | Written(updates, k)
      ensures k <= i
    {
      var t :| 0 <= t < |updates| && updates[t].i == k;
    }
  }

  /** One step of the `for` loop: shift, then `arr[j] = temp` and
      `update(j, i)`. The cells up to `i` end `gap`-ordered. */
  method GapInsert(s: seq<int>, gap: int, i: int) returns (r: seq<int>, updates: seq<Update>)
    requires 0 < gap <= i < |s|
    requires forall k :: gap <= k < i ==> GapOrdered(s, k, gap)
    ensures SameOutside(s, r, 0, i + 1)
    ensures forall k :: gap <= k <= i ==> GapOrdered(r, k, gap)
    ensures multiset(r) == multiset(s)
    ensures |updates| >= 1 && InBounds(updates, |s|) && updates[|updates| - 1].j == i
    ensures var h := i - (|updates| - 1) * gap;
      0 <= h <= i && updates[|updates| - 1] == Update(h, i) && r[h] == s[i]
    ensures s[i - gap] <= s[i] ==> r == s && updates == [Update(i, i)]
  {
    var shifted, j;
    shifted, j, updates := ShiftDown(s, gap, i);
    r := shifted[j := s[i]];
    PlaceKeepsOrder(shifted, s, gap, i, j, r);
    updates := updates + [Update(j, i)];
  }

  /** One pass of the `for` loop over `i` in `gap..n`: the array ends
      `gap`-sorted, with at least one notification per `i`. */
  method GapPass(s: seq<int>, gap: int) returns (r: seq<int>, updates: seq<Update>)
    requires 0 < gap <= |s|
    ensures |r| == |s| && GapSorted(r, gap)
    ensures multiset(r) == multiset(s)
    ensures |updates| >= |s| - gap && InBounds(updates, |s|)
    ensures Sorted(s) ==> r == s && |updates| == |s| - gap
  {
    r := s;
    updates := [];
    var i := gap;
    while i < |s|
      invariant gap <= i <= |s| && |r| == |s|
      invariant forall k :: gap <= k < i ==> GapOrdered(r, k, gap)
      invariant multiset(r) == multiset(s)
      invariant |updates| >= i - gap && InBounds(updates, |s|)
      invariant Sorted(s) ==> r == s && |updates| == i - gap
    {
      var u;
      r, u := GapInsert(r, gap, i);
      updates := updates + u;
      i := i + 1;
    }
  }

  /** Sorts `a`. The last pass has gap 1 and so is an insertion sort. Every
      pass places each of its `n - gap` cells once; on sorted input nothing
      moves and those placements are the only notifications. */
  method Sort(a: seq<int>) returns (r: seq<int>, updates: seq<Update>)
    ensures Sorted(r)
    ensures multiset(r) == multiset(a)
    ensures |updates| >= Placements(|a|, |a| / 2) && InBounds(updates, |a|)
    ensures Sorted(a) ==> r == a && |updates| == Placements(|a|, |a| / 2)
  {
    var n := |a|;
    r := a;
    updates := [];
    var gap := n / 2;
    while gap > 0
      invariant 0 <= gap <= n && |r| == n
      invariant gap == 0 ==> Sorted(r)
      invariant multiset(r) == multiset(a)
      invariant |updates| + Placements(n, gap) >= Placements(n, n / 2)
      invariant InBounds(updates, n)
      invariant Sorted(a) ==> r == a && |updates| + Placements(n, gap) == Placements(n, n / 2)
      decreases gap
    {
      var u;
      r, u := GapPass(r, gap);
      updates := updates + u;
      if gap == 1 {
        OneSortedIsSorted(r);
      }
      gap := gap / 2;
    }
  }
}

=== FILE: tim.dfy ===
/** `tim_sort`: the built-in `arr.sort()`, after which every index is
    notified once with `update(i, i)`, in order. */
module TimSort {
  import opened Common
  import opened Builtin

  /** Sorts `a` with the built-in sort, then notifies `update(i, i)` for
      `i = 0, 1, ..., n - 1`. */
  method Sort(a: seq<int>) returns (r: seq<int>, updates: seq<Update>)
    ensures Sorted(r)
    ensures multiset(r) == multiset(a)
    ensures updates == Sweep(0, |a|)
  {
    r := ListSort(a);
    assert |r| == |multiset(a)| == |a|;
    updates := [];
    var i := 0;
    while i < |r|
      invariant 0 <= i <= |r|
      invariant updates == Sweep(0, i)
    {
      updates := updates + [Update(i, i)];
      i := i + 1;
    }
  }
}
